=== FILE: README.md ===
# Vietnamese DeepFake Audio: corpus preparation, modelled in Dafny

This project models the corpus-preparation core of the Vietnamese
DeepFake-Audio repository, working over the VIVOS speech corpus.

The dataset splitter (`split_data.py`) does three things:
- It reads the training transcript index `<train>/train.txt`.
- It draws `int(len(data) * dev_ratio)` lines at random as the dev set. The
  train set is every line not among the drawn ones.
- It writes `train_new.txt` and `dev.txt` next to the index, then moves the
  `.wav` file of every dev utterance. For each of the 46 speakers
  `VIVOSSPK01` to `VIVOSSPK46`, a file leaves `<train>/waves/<speaker>/` for
  `<dev>/waves/<speaker>/` when some dev line starts with the file's name
  without `.wav`.

The batch processor (`extract.py`) also works in three steps:
- It parses an index into utterance ids and transcripts. A line that does not
  split at a space is fatal.
- It runs the MFCC extractor on `<data_dir>/<id>.wav` for every entry.
- It saves each matrix as `<output_dir>/<id>.npy`. An entry whose extraction
  or save fails is skipped.

Modules, one per concern:

- `Results`: the `Option` and `Result` wrappers.
- `Text`: the Python string operations the scripts use. `strip` follows
  Python's own `isspace` table; `replace` is a left-to-right scan.
- `LineFiles`: text files as `f.write(sample + '\n')` leaves them and as
  `for line in f` reads them back. Reading translates `\r\n` and a lone `\r`
  to `\n` (universal newlines). `for line in f` ends each line at a `\n`, so
  a final `\n` does not start an empty line, and an unterminated last line is
  read like any other.
- `Paths`: the `posixpath` functions `join`, `basename` and `splitext`.
- `TranscriptSplit`: `split_transcript`, modelled as a method.
- `Speakers`: the speaker ids `f"VIVOSSPK{i:02}"`.
- `Relocation`: `split_wav_files`. The class `Corpus` holds the directories
  and files of the two audio trees.
- `Batch`: `process_vivos_dataset` and the contract of `extract_mfcc`. The
  class `FeatureStore` holds the output directory and its saved arrays.
- `Pipeline`: `main`, which splits the index and then moves the audio.

Parameters stand in for what the code cannot see:
- The random draw is a parameter `picks`, any sequence of distinct positions
  of the right length.
- The moves that raise are a set `blocked`.
- The order of a directory listing is a nondeterministic choice.
- The audio decoder is a function `load` that computes a matrix or raises.
- The output files whose `np.save` raises are a set `unwritable`.
- The platform line terminator is a parameter `nl`.

Behaviours of the code that the model keeps as written:
- Sample counts are truncated by `int()`, not rounded. This covers both the
  dev count and the 400-sample frame and 160-sample hop.
- The dev count is truncated toward zero, not floored. A ratio slightly below
  zero gives an empty dev set rather than an error (`DevCountTruncates`).
- An utterance id ends at the first space character, not at the first
  whitespace.
- The output name is taken from `splitext(basename(audio_path))`, not from the
  id itself. The two agree unless the id contains `/` or consists of dots
  only (`OutputNameOfId`, `OutputNameOfDotId`).
- A missing train speaker directory makes `os.listdir` raise outside any
  `try`. That ends `split_wav_files` at that speaker (`ListingFailed`).
- Dev membership is a prefix test, as written. It also selects `S1.wav` for
  the dev line of `S12` (`PrefixTestOverreaches`).

## Model

| member | source | states |
|---|---|---|
| Text.IsSpace | split_data.py:32 | definition of `str.isspace`, the white-space table behind `strip()` |
| Text.TrimStart | split_data.py:32 | leading part of `strip()`: removes only white space from the front, leaves a result that does not start with white space, and is the identity when nothing leads |
| Text.TrimEnd | split_data.py:32 | trailing part of `strip()`: removes only white space from the end, leaves a result that does not end with white space, and is the identity when nothing trails |
| Text.Strip | split_data.py:32 | `line.strip()` is stripped at both ends, no longer than the line, and leaves an already stripped string alone; which infix it keeps is stated by Text.StripInfix |
| Text.StripInfix | split_data.py:32 | `line.strip()` is the infix of the line between its leading and its trailing white space, all of which is removed |
| Text.StripIdempotent | split_data.py:82 | stripping twice equals stripping once |
| Text.TrimStartSnoc | split_data.py:32 | `lstrip()` of a string with one more character keeps that character unless everything up to it is white space |
| Text.StripSpaceSnoc | split_data.py:32 | a trailing white-space character does not change the result of `strip()` |
| Text.TrimEndSpaceSnoc | split_data.py:32 | `rstrip()` drops a trailing white-space character |
| Text.StripTrailingSpace | split_data.py:32 | a stripped string followed by one white-space character strips back to itself |
| Text.ReplaceAllAfter | split_data.py:44 | `replace` copies a part before the first occurrence unchanged and continues on the rest |
| Text.ReplaceAllWhole | split_data.py:44 | a string that is exactly the pattern becomes the replacement |
| Text.ReplaceAllAbsent | split_data.py:44 | `replace` leaves a string without the pattern unchanged |
| Text.ReplaceAll | split_data.py:44 | definition of `str.replace`: a left-to-right scan replacing each non-overlapping occurrence |
| Text.ReplaceAllLonger | split_data.py:44-50 | a longer replacement never gives a shorter result, and a strictly longer one whenever the pattern occurs |
| Text.StartsWith | split_data.py:102 | definition of `str.startswith` |
| Text.EndsWith | split_data.py:96 | definition of `str.endswith` |
| Text.FindChar | extract.py:63 | the first position of a character, or none exactly when it does not occur |
| LineFiles.Translate | split_data.py:30-31 | universal-newline reading leaves no carriage return and changes text that had none in no way |
| LineFiles.Lines | split_data.py:31 | the lines yielded by `for line in f` hold no newline and only characters of the file; which lines they are is stated by LineFiles.LinesUnterminated and LineFiles.LinesCons |
| LineFiles.LinesUnterminated | split_data.py:31 | text without a newline, such as an unterminated last line, is read as one line |
| LineFiles.LinesCons | split_data.py:31 | a line ended by a newline is read first, followed by the lines of the rest |
| LineFiles.StripTerminatedLine | split_data.py:31-32 | stripping a line with its newline gives what stripping it without the newline gives |
| LineFiles.StripAll | split_data.py:32 | the stripped list has one entry per line, entry `i` being line `i` stripped |
| LineFiles.ReadStripped | split_data.py:29-32 | definition of the stripped lines of a transcript file, as both the append loop and the list comprehension at split_data.py:82 read them |
| LineFiles.ReadStrippedLines | split_data.py:29-32 | the reading loop returns the stripped lines of the file, in order |
| LineFiles.WriteLines | split_data.py:45-53 | definition of the file contents after `f.write(sample + '\n')` for each sample |
| LineFiles.Terminator | split_data.py:47 | definition of what a written `'\n'` becomes on disk: `\n` on POSIX, `\r\n` on Windows |
| LineFiles.ReadStrippedClean | split_data.py:81-82 | every line read back and stripped is stripped and free of line breaks |
| LineFiles.TranslatePlain | split_data.py:30-31 | text without a carriage return reads back unchanged in front of whatever follows |
| LineFiles.TranslateTerminator | split_data.py:30-31 | either written terminator reads back as `\n` in front of whatever follows |
| LineFiles.TranslateWritten | split_data.py:45-47 | samples without carriage returns, written with either line terminator, read back as the same text written with `\n` |
| LineFiles.LinesWritten | split_data.py:45-47 | lines written with `\n` terminators come back as the same lines |
| LineFiles.WriteReadRoundTrip | split_data.py:45-53 | writing clean samples one per line and reading them back stripped returns exactly the samples, for both terminators |
| LineFiles.InternalNewlineSplits | split_data.py:47 | a sample holding a newline comes back as two lines |
| TranscriptSplit.Truncate | split_data.py:35 | `int(x)` truncates toward zero for both signs |
| TranscriptSplit.DevCount | split_data.py:35 | definition of `int(len(data) * dev_ratio)` |
| TranscriptSplit.DevCountInRange | split_data.py:35 | for a ratio between 0 and 1 the dev count is the floor of `n * ratio` and lies between 0 and `n` |
| TranscriptSplit.DevCountTruncates | split_data.py:35 | a product between -1 and 0 truncates to 0; one at or below -1, or at or above `n + 1`, gives a count that `random.sample` refuses |
| TranscriptSplit.IsDraw | split_data.py:38 | definition of the draws `random.sample(data, k)` can make: `k` distinct positions of the data |
| TranscriptSplit.Select | split_data.py:38 | the dev samples are `k` lines of the data, one per drawn position |
| TranscriptSplit.SelectConcat | split_data.py:38 | drawing by two position lists one after the other gives the two draws one after the other |
| TranscriptSplit.SelectPrefix | split_data.py:38 | a draw only looks at the lines up to its largest position |
| TranscriptSplit.DrawWithout | split_data.py:38 | removing the drawn last position from a draw leaves a draw among the other positions |
| TranscriptSplit.Train | split_data.py:41 | a line is kept for training exactly when it is in the data and not among the dev samples |
| TranscriptSplit.TrainConcat | split_data.py:41 | the filter distributes over concatenated data |
| TranscriptSplit.TrainMultiplicity | split_data.py:41 | a kept line keeps all its occurrences; a dev line loses all of them |
| TranscriptSplit.TrainDevPartition | split_data.py:41 | no line is in both train and dev, and a line is in the data exactly when it is in one of them |
| TranscriptSplit.SelectSubMultiset | split_data.py:38 | a draw of distinct positions takes each line at most as often as it occurs |
| TranscriptSplit.SplitSizeBound | split_data.py:38-41 | train and dev together are never longer than the data |
| TranscriptSplit.SplitSizeDistinct | split_data.py:38-41 | with distinct lines, train and dev sizes add up to the data size |
| TranscriptSplit.SplitSizeShortfall | split_data.py:41 | with a duplicated line drawn once, train loses both copies and the sizes fall short |
| TranscriptSplit.DistinctAtMostOnce | split_data.py:41 | in distinct data every line occurs at most once |
| TranscriptSplit.OutputPathsAreSiblings | split_data.py:44-50 | for `<dir><sep>train.txt` with no `train.txt` in `dir`, the outputs are `<dir><sep>train_new.txt` and `<dir><sep>dev.txt` |
| TranscriptSplit.OutputPathsCollide | split_data.py:44-50 | a path without `train.txt` makes both outputs the input path itself |
| TranscriptSplit.NewTrainPath | split_data.py:44 | definition of the new training index path |
| TranscriptSplit.DevPath | split_data.py:50 | definition of the dev index path |
| TranscriptSplit.Outputs | split_data.py:44-53 | the written files are exactly the new training index and the dev index |
| TranscriptSplit.WriteLinesOfRoundTrip | split_data.py:44-53 | lines taken from clean lines read back unchanged after being written |
| TranscriptSplit.OutputsRoundTrip | split_data.py:29-53 | the dev file reads back as the drawn lines and, when the paths differ, the train file as the kept lines |
| TranscriptSplit.SplitTranscript | split_data.py:19-59 | fails with `ValueError` exactly when the count is out of range, writing nothing; otherwise dev has `k` drawn lines, train is the rest, both files are written and read back as dev and (when the paths differ) train |
| Speakers.Digit | split_data.py:86 | a digit below 10 is one of `0`..`9` |
| Speakers.Pad2 | split_data.py:86 | `{i:02}` is two digits that read back as `i` |
| Speakers.SpeakerId | split_data.py:86 | a speaker id is the prefix `VIVOSSPK` and two characters |
| Speakers.SpeakerNumberOfId | split_data.py:85-86 | reading an id back gives its number |
| Speakers.SpeakerIdOfNumber | split_data.py:85-86 | an id that reads back as a number from 1 to 46 is the id formatted from that number |
| Speakers.SpeakerIdInjective | split_data.py:85-86 | different numbers give different ids |
| Speakers.SpeakerIdsExactly | split_data.py:85-86 | the visited ids are exactly the prefixed two-digit ids numbered 1 to 46 |
| Speakers.SpeakerIds | split_data.py:85-86 | definition of the speaker ids in visiting order |
| Speakers.LexLessCommonPrefix | split_data.py:86 | a shared prefix does not change the string order |
| Speakers.Pad2Ordered | split_data.py:86 | zero padding makes string order agree with number order |
| Speakers.SpeakerIdsIncreasing | split_data.py:85-86 | speakers are visited in strictly increasing id order, each once |
| Relocation.IsWav | split_data.py:96 | definition of `filename.endswith(".wav")` |
| Relocation.Stem | split_data.py:96-97 | `filename[:-4]` of a `.wav` name is the name without its extension |
| Relocation.IsDevFile | split_data.py:96-104 | definition of the dev test on a listed file name |
| Relocation.FindDevMatch | split_data.py:100-104 | the search loop answers true exactly when some dev line starts with the stem |
| Relocation.DevLineSelectsItsFile | split_data.py:100-104 | a dev line `<id> <text>` selects the file `<id>.wav` |
| Relocation.PrefixTestOverreaches | split_data.py:102 | the prefix test also selects a file whose id is a proper prefix of a dev id |
| Relocation.AfterMovesUnlisted | split_data.py:95-117 | a train file not yet listed is untouched |
| Relocation.AfterMoves | split_data.py:95-117 | definition of the files after the listed train files have been tried |
| Relocation.AfterMovesStep | split_data.py:106-117 | one more listed file changes the outcome only by its own move |
| Relocation.AfterMovesNone | split_data.py:95-117 | before anything is listed no file has moved |
| Relocation.MoveOne | split_data.py:106-117 | definition of one iteration of the listing loop |
| Relocation.MoveEach | split_data.py:95-117 | definition of the listing loop over one speaker's names in listing order |
| Relocation.NamedListing | split_data.py:95 | a speaker's whole listing names exactly that speaker's train files |
| Relocation.MoveEachAfterMoves | split_data.py:95-117 | the listing loop, in any order without repeats, carries out exactly the moves of the listed files |
| Relocation.ListingOrderIrrelevant | split_data.py:95-97 | two listings of the same directory, in different orders, leave the same files |
| Relocation.Corpus.MoveListed | split_data.py:96-117 | one listed file moves to its dev twin exactly when it exists, passes the dev test and its move does not raise; nothing else changes |
| Relocation.Corpus.MakeDirs | split_data.py:77-78 | the directory and its root exist afterwards and no other directory is added |
| Relocation.Corpus.MoveSpeakerFiles | split_data.py:95-117 | after one speaker's listing, each of its `.wav` files that passes the dev test and does not raise has moved |
| Relocation.Corpus.VisitSpeaker | split_data.py:85-117 | one speaker's step makes its dev directory, and lists and moves its files exactly when its train directory exists |
| Relocation.Corpus.MoveSpeakers | split_data.py:85-117 | the speaker loop either visits all 46 speakers or stops at the first missing train directory, with the directories made and files moved up to there |
| Relocation.Corpus.Relocate | split_data.py:62-120 | a run that visits all 46 speakers leaves exactly the relocated files; a run stopped by a missing train directory leaves the moves of the earlier speakers |
| Relocation.NextSpeaker | split_data.py:85-95 | each loop step adds one new speaker's files and dev directory |
| Relocation.AllSpeakersListed | split_data.py:85-86 | the set of speakers the move step visits is exactly the list `VIVOSSPK01` … `VIVOSSPK46` it visits them in |
| Relocation.Relocated | split_data.py:85-117 | definition of the files after all 46 speakers have been visited |
| Relocation.ListingUnchanged | split_data.py:95 | a speaker's listing is that speaker's train files from before the run |
| Relocation.RelocatedMovesDevFile | split_data.py:106-112 | a selected, unblocked train file of a speaker ends in the dev tree with the same contents and leaves the train tree |
| Relocation.RelocatedKeepsTrainFile | split_data.py:106-117 | every other train file stays, unchanged |
| Relocation.RelocatedKeepsDevFile | split_data.py:109-112 | a dev file is kept unless a moved twin replaces it |
| Relocation.RelocatedAddsNothing | split_data.py:108-112 | every file afterwards was there before or was moved from its train twin |
| Relocation.RelocatedSingleOwner | split_data.py:112 | if no file name is in both trees before, none is after |
| Relocation.RelocatedPresence | split_data.py:112 | a file name is somewhere in the corpus after the run exactly when it was before |
| Relocation.RelocatedLeavesOnlyBlocked | split_data.py:111-117 | a selected train file still in the train tree afterwards is one whose move raised |
| Relocation.RelocatedIdempotent | split_data.py:62-120 | running the relocation again changes nothing |
| Paths.LastIndex | extract.py:78 | the last position of a character, or none exactly when it does not occur |
| Paths.Join | extract.py:64 | definition of `posixpath.join` for two parts |
| Paths.Basename | extract.py:78 | `basename` is the longest slash-free suffix |
| Paths.SplitExtRoot | extract.py:78 | the root `splitext` returns is a prefix of the path |
| Paths.BasenameAppend | extract.py:78 | appending a slash-free name to a directory gives a path whose basename is that name |
| Paths.BasenameSnoc | extract.py:78 | a character other than `/` appended to a path is appended to its basename |
| Paths.BasenameOfJoin | extract.py:64-78 | the basename of `join(dir, name)` is `name` |
| Paths.LastIndexIs | extract.py:78 | the last occurrence is the one no later occurrence follows |
| Paths.SplitExtRootOfExt | extract.py:78 | `splitext` takes a dot-free extension off a name that is not all dots |
| Paths.SplitExtRootOfDots | extract.py:78 | a name of dots and an extension is left whole |
| Batch.SplitEntry | extract.py:63 | a stripped line splits exactly when it has a space: the id before the first space, the rest as transcript, and a non-empty id |
| Batch.SplitEntryRoundTrip | extract.py:63 | `<id> <transcript>` splits back into the same entry when the id has no space |
| Batch.SplitEntryFailures | extract.py:63 | an empty line, and an id with only a trailing space, do not split |
| Batch.Entries | extract.py:61-65 | definition of the parse of the index: the entries in order, or the first line that does not split |
| Batch.EntriesOk | extract.py:62-63 | the index parses exactly when every line splits |
| Batch.EntriesValues | extract.py:62-63 | after a successful parse there is one entry per line, and entry `j` is the split of line `j` |
| Batch.EntriesErr | extract.py:62-63 | a failed parse names the first line that does not split |
| Batch.EntriesSnoc | extract.py:62-63 | one more line either extends the entries or is the failure |
| Batch.EntriesStop | extract.py:62-63 | lines after the first failure are never examined |
| Batch.AudioPath | extract.py:64 | definition of `os.path.join(data_dir, filename + ".wav")` |
| Batch.OutputName | extract.py:78 | definition of the output file name |
| Batch.OutputNameOfId | extract.py:64-78 | an id without `/` and not made of dots is saved as `<id>.npy` |
| Batch.OutputNameOfDotId | extract.py:64-78 | an id made of dots keeps `.wav` in its output name |
| Batch.Samples | extract.py:31-32 | definition of `int(seconds * sr)`, truncated toward zero |
| Batch.DefaultWindow | extract.py:6-9 | the default 25 ms frame and 10 ms hop at 16 kHz are 400 and 160 samples |
| Batch.ExtractMfcc | extract.py:26-45 | any exception in loading or the transform yields `None`; otherwise the computed matrix |
| Batch.IndexOf | extract.py:64-65 | the two lists are as long as the entries |
| Batch.IndexOfAt | extract.py:64-65 | position `k` holds `<data_dir>/<id>.wav` and the transcript of entry `k` |
| Batch.IndexOfSnoc | extract.py:64-65 | one parsed entry more appends its audio path and its transcript to the lists |
| Batch.ReadTranscript | extract.py:61-65 | the parsing loop returns the lists of the parsed entries, or the first line's error |
| Batch.Savings | extract.py:72-87 | one saving, or none, per entry |
| Batch.OutputPath | extract.py:79 | definition of the output path |
| Batch.EntrySaving | extract.py:73-87 | definition of what one entry leaves behind: its `.npy` file, or nothing |
| Batch.Apply | extract.py:80 | definition of carrying out the savings in order |
| Batch.ApplyStep | extract.py:72-80 | each entry's save is carried out after those before it |
| Batch.ApplyOverlay | extract.py:80 | saving overwrites files of the same name and leaves the rest alone |
| Batch.ApplyIdempotent | extract.py:72-87 | rerunning the batch on its own output leaves the same files |
| Batch.SavesToSnoc | extract.py:72-80 | a file is written by the entries so far exactly when earlier ones or the last one write it |
| Batch.ApplyKeys | extract.py:72-80 | a file exists afterwards exactly when it did before or some entry saved it |
| Batch.ApplyUntouched | extract.py:72-80 | a file no entry saves to keeps its contents |
| Batch.ApplyLast | extract.py:72-80 | a saved file holds the matrix of the last entry that saved it |
| Batch.ApplySkipsFailure | extract.py:83-87 | a failed entry changes nothing, as if it were not in the index |
| Batch.EntrySavingFails | extract.py:74-87 | an entry whose extraction raises or whose save raises saves nothing |
| Batch.SavingGoesToId | extract.py:64-80 | entry `k` saves, if at all, to `<output_dir>/<id>.npy` |
| Batch.FeatureStore.ProcessVivosDataset | extract.py:47-87 | a line that does not split aborts before any directory is made; otherwise the output directory exists and the files are the savings of all entries applied in order |
| Batch.FeatureStore.SaveAll | extract.py:72-87 | the saving loop leaves the files the savings of all entries produce, applied in order |
| Batch.FeatureStore.SaveEntry | extract.py:72-87 | one entry adds or overwrites its `.npy` file, or changes nothing when extraction or saving fails |
| Pipeline.TrainIndexPath | split_data.py:127 | definition of `os.path.join(opt.train_path, "train.txt")` |
| Pipeline.RunPathsDiffer | split_data.py:127-130 | the new train index and the dev index `main` writes are always two different files, because the index it splits ends in `train.txt` |
| Pipeline.Run | split_data.py:123-133 | a failed split changes nothing; otherwise exactly the new train index and the dev index are written, the dev index is read back as the drawn samples and the train index as the remaining lines, a completed move step leaves the files relocated by them and the dev directories of all 46 speakers made, and a move step that stops at a missing train directory leaves the moves of the speakers before it and their dev directories |
| Pipeline.DevUtteranceMoved | split_data.py:100-112 | the audio `<id>.wav` of a drawn dev sample `<id> <transcript>` ends in the dev tree and not in the train tree, unless its move raises |

## Left out

- TranscriptSplit.SplitTranscript: the ratio is a real number, so a `nan` or infinite `--dev-ratio`, for which `int(len(data) * dev_ratio)` raises `ValueError` or `OverflowError`, is not modelled; the failure condition covers finite ratios only.
- Relocation.Corpus.Relocate: the train and dev roots are distinct. With `--train-path` equal to `--dev-path` each move is from a file to itself and leaves it where it is, which the model does not capture (`RelocatedMovesDevFile` would not hold).
- Floating point: `int(len(data) * dev_ratio)` is taken on the exact real product. Float rounding can differ from it at an exact boundary.
- The distribution of `random.sample` is left out. Any draw of distinct positions of the right length is allowed.
- `shutil.move` is atomic here. A copy-then-delete move across file systems that fails half way is not modelled.
- Windows paths (`ntpath`) are left out. Paths follow POSIX rules.
- Subdirectories inside a speaker directory are left out: every listed name is taken as a file.
- I/O errors when opening or reading a transcript file are left out.
- Directory creation (`os.makedirs` at split_data.py:78 and :92, extract.py:69) and writing the index files (`f.write` at split_data.py:45-53) always succeed here. A raise there, such as a `PermissionError`, or a `FileExistsError` for a dangling link that `os.path.exists` reports as absent, would abort the stage and is not modelled.
- `os.makedirs` creating parent directories of `output_dir` is left out. The output directory itself is added.
- The feature transform (audio decoding, resampling, the MFCC computation and the shape of its result) is the parameter `load`. Its numerics are not modelled.
- `np.save` writing part of a file before it raises is left out. A failing save leaves no file.
- The speech-synthesis client in `TTS/`, the argument parser, and all `print` output are not part of this model.
- The rule that an id's speaker prefix decides its audio directory is left out. Relocation matches files by name within each speaker directory, as the code does.

=== FILE: batch.dfy ===
/**
 * `process_vivos_dataset` and the contract of `extract_mfcc`: parse a
 * transcript index, resolve each entry to its audio file, run the feature
 * extractor on each in order and save every matrix it returns as a `.npy`
 * file in the output directory.
 *
 * The extractor itself (audio loading, resampling, the cepstral transform)
 * is the parameter `load`, which either computes a matrix or raises.
 */
module Batch {
  import opened Results
  import opened Text
  import opened LineFiles
  import opened Paths
  import opened Seqs
  import TranscriptSplit

  /** One transcript entry: `filename, transcript = ...` of one line. */
  datatype Entry = Entry(id: string, transcript: string)

  /** `s.split(" ", 1)` unpacked into two names, for a line `s` that has
      already been stripped: the id is the text before the first space and
      the transcript everything after it, later spaces included. Without a
      space the split has one part and the unpacking raises `ValueError`. */
  function SplitEntry(s: string): (r: Option<Entry>)
    ensures r.Some? <==> ' ' in s
    ensures r.Some? ==> s == r.value.id + " " + r.value.transcript && ' ' !in r.value.id
    ensures r.Some? && IsStripped(s) ==> r.value.id != []
  {
    match FindChar(s, ' ')
    case None => None
    case Some(i) =>
      assert s == s[..i] + " " + s[i + 1..];
      Some(Entry(s[..i], s[i + 1..]))
  }

  /** An entry written as `<id> <transcript>` splits back into itself when
      the id has no space; the transcript may hold any. */
  lemma SplitEntryRoundTrip(e: Entry)
    requires ' ' !in e.id
    ensures SplitEntry(e.id + " " + e.transcript) == Some(e)
  {
    var s := e.id + " " + e.transcript;
    assert s[..|e.id|] == e.id && s[|e.id|] == ' ';
    assert FindChar(s, ' ') == Some(|e.id|);
    assert s[|e.id| + 1..] == e.transcript;
  }

  /** An empty line, and an id without a space followed by nothing but a
      space (the trailing space falls to `strip()`), do not split into two
      parts. */
  lemma SplitEntryFailures(id: string)
    requires IsStripped(id) && ' ' !in id
    ensures SplitEntry(Strip("")) == None
    ensures SplitEntry(Strip(id + " ")) == None
  {
    StripTrailingSpace(id, ' ');
  }

  /** The unpacking error of line `lineIndex` (counted from 0), which ends
      the run. */
  datatype ParseError = NoSpace(lineIndex: nat)

  /** The entries of the stripped lines of the index, in order, or the error
      of the first line that does not split. */
  function Entries(stripped: seq<string>): Result<seq<Entry>, ParseError>
  {
    if stripped == [] then Ok([])
    else match Entries(stripped[..|stripped| - 1])
      case Err(e) => Err(e)
      case Ok(es) =>
        match SplitEntry(stripped[|stripped| - 1])
        case None => Err(NoSpace(|stripped| - 1))
        case Some(e) => Ok(es + [e])
  }

  /** The whole index parses exactly when every line splits. */
  lemma {:induction false} EntriesOk(stripped: seq<string>)
    ensures Entries(stripped).Ok? <==> forall j :: 0 <= j < |stripped| ==> SplitEntry(stripped[j]).Some?
  {
    if stripped != [] {
      EntriesOk(stripped[..|stripped| - 1]);
      AllSnoc(s => SplitEntry(s).Some?, stripped[..|stripped| - 1], stripped);
    }
  }

  /** After a successful parse, entry `j` is the split of line `j`. */
  lemma {:induction false} EntriesValues(stripped: seq<string>)
    requires Entries(stripped).Ok?
    ensures |Entries(stripped).value| == |stripped|
    ensures forall j :: 0 <= j < |stripped| ==>
      SplitEntry(stripped[j]).Some? && Entries(stripped).value[j] == SplitEntry(stripped[j]).value
  {
    if stripped != [] {
      var init, last := stripped[..|stripped| - 1], stripped[|stripped| - 1];
      EntriesValues(init);
      CollectSnoc(SplitEntry, Entries(init).value, stripped, SplitEntry(last).value);
    }
  }

  /** A failed parse names the first line that does not split. */
  lemma {:induction false} EntriesErr(stripped: seq<string>)
    ensures Entries(stripped).Err? ==>
      var k := Entries(stripped).error.lineIndex;
      && k < |stripped| && SplitEntry(stripped[k]).None?
      && forall j :: 0 <= j < k ==> SplitEntry(stripped[j]).Some?
  {
    if stripped != [] {
      var init := stripped[..|stripped| - 1];
      EntriesErr(init);
      EntriesOk(init);
      assert forall j :: 0 <= j < |init| ==> init[j] == stripped[j];
    }
  }

  /** One more line: its split extends the entries, or it is the failing
      line. */
  lemma EntriesSnoc(stripped: seq<string>, s: string)
    ensures Entries(stripped + [s]) ==
      match Entries(stripped)
      case Err(e) => Err(e)
      case Ok(es) =>
        match SplitEntry(s)
        case None => Err(NoSpace(|stripped|))
        case Some(e) => Ok(es + [e])
  {
    assert (stripped + [s])[..|stripped|] == stripped;
  }

  /** Once a prefix fails, the rest of the index is never looked at. */
  lemma {:induction false} EntriesStop(stripped: seq<string>, i: nat)
    requires i <= |stripped| && Entries(stripped[..i]).Err?
    ensures Entries(stripped) == Entries(stripped[..i])
    decreases |stripped| - i
  {
    if i < |stripped| {
      PrefixSnoc(stripped, i);
      EntriesStop(stripped, i + 1);
    } else {
      assert stripped[..i] == stripped;
    }
  }

  /** `os.path.join(data_dir, filename + ".wav")`. */
  function AudioPath(dataDir: string, id: string): string {
    Join(dataDir, id + ".wav")
  }

  /** `os.path.splitext(os.path.basename(audio_path))[0] + ".npy"`. */
  function OutputName(audioPath: string): string {
    SplitExtRoot(Basename(audioPath)) + ".npy"
  }

  /** Output naming: an id without "/" that is not made of dots alone gets
      the feature file `<id>.npy`. */
  lemma OutputNameOfId(dataDir: string, id: string)
    requires '/' !in id && exists i :: 0 <= i < |id| && id[i] != '.'
    ensures OutputName(AudioPath(dataDir, id)) == id + ".npy"
  {
    var name := id + ".wav";
    assert name == id + "." + "wav";
    assert '/' !in name by {
      forall j | 0 <= j < |name| ensures name[j] != '/' {
        if j < |id| { assert name[j] == id[j]; }
      }
    }
    BasenameOfJoin(dataDir, name);
    SplitExtRootOfExt(id, "wav");
  }

  /** An id made of dots alone keeps its ".wav": `splitext` finds no
      extension in a name such as "..wav", so the output is `<id>.wav.npy`. */
  lemma OutputNameOfDotId(dataDir: string, id: string)
    requires id != [] && forall i :: 0 <= i < |id| ==> id[i] == '.'
    ensures OutputName(AudioPath(dataDir, id)) == id + ".wav" + ".npy"
  {
    var name := id + ".wav";
    assert name == id + "." + "wav";
    assert '/' !in name by {
      forall j | 0 <= j < |name| ensures name[j] != '/' {
        if j < |id| { assert name[j] == id[j]; }
      }
    }
    BasenameOfJoin(dataDir, name);
    SplitExtRootOfDots(id, "wav");
  }

  /** `SAMPLE_RATE`, `N_MFCC`, `FRAME_LENGTH` and `HOP_LENGTH`, the defaults
      `process_vivos_dataset` calls `extract_mfcc` with. */
  const SampleRate: nat := 16000
  const MfccCount: nat := 40
  const FrameLength: real := 0.025
  const HopLength: real := 0.010

  /** `int(seconds * sr)`: a duration in samples, truncated toward zero. */
  function Samples(seconds: real, sr: nat): int {
    TranscriptSplit.Truncate(seconds * sr as real)
  }

  /** The parameters `librosa` is called with. */
  datatype MfccConfig = MfccConfig(sampleRate: nat, nMfcc: nat, frameSamples: int, hopSamples: int)

  const DefaultConfig := MfccConfig(SampleRate, MfccCount, Samples(FrameLength, SampleRate), Samples(HopLength, SampleRate))

  /** The default analysis window is 400 samples with a hop of 160. */
  lemma DefaultWindow()
    ensures DefaultConfig.frameSamples == 400 && DefaultConfig.hopSamples == 160
  {
    assert FrameLength * SampleRate as real == 400.0;
    assert HopLength * SampleRate as real == 160.0;
  }

  /** A feature matrix: one row per coefficient, one column per frame. */
  type Matrix = seq<seq<real>>

  /** What the body of `extract_mfcc`'s `try` does: returns a matrix, or
      raises with some cause. */
  datatype Attempt = Computed(matrix: Matrix) | Raised(cause: string)

  /** `extract_mfcc(audio_path)`: every exception becomes `None`; otherwise
      the computed matrix is returned as is. */
  function ExtractMfcc(load: (string, MfccConfig) -> Attempt, audioPath: string): (r: Option<Matrix>)
    ensures r.None? <==> load(audioPath, DefaultConfig).Raised?
    ensures r.Some? ==> r.value == load(audioPath, DefaultConfig).matrix
  {
    match load(audioPath, DefaultConfig)
    case Computed(m) => Some(m)
    case Raised(_) => None
  }

  /** The two lists the reading loop builds. */
  datatype Index = Index(audioPaths: seq<string>, transcripts: seq<string>)

  /** The lists for parsed entries: `<data_dir>/<id>.wav` and the
      transcript of each entry, in order. */
  function IndexOf(dataDir: string, es: seq<Entry>): (index: Index)
    ensures |index.audioPaths| == |index.transcripts| == |es|
  {
    if es == [] then Index([], [])
    else
      var init := IndexOf(dataDir, es[..|es| - 1]);
      var e := es[|es| - 1];
      Index(init.audioPaths + [AudioPath(dataDir, e.id)], init.transcripts + [e.transcript])
  }

  /** Position `k` of the lists comes from entry `k`. */
  lemma {:induction false} IndexOfAt(dataDir: string, es: seq<Entry>, k: nat)
    requires k < |es|
    ensures IndexOf(dataDir, es).audioPaths[k] == AudioPath(dataDir, es[k].id)
    ensures IndexOf(dataDir, es).transcripts[k] == es[k].transcript
    decreases |es|
  {
    if k < |es| - 1 {
      IndexOfAt(dataDir, es[..|es| - 1], k);
    }
  }

  /** One parsed entry more adds its audio path and its transcript at the
      end of the lists. */
  lemma IndexOfSnoc(dataDir: string, es: seq<Entry>, e: Entry)
    ensures IndexOf(dataDir, es + [e]) ==
      Index(IndexOf(dataDir, es).audioPaths + [AudioPath(dataDir, e.id)], IndexOf(dataDir, es).transcripts + [e.transcript])
  {
    assert (es + [e])[..|es|] == es;
  }

  /** The parsing loop of `process_vivos_dataset` over the stripped lines of
      the index: the lists of the parsed entries, or the error of the first
      line that does not split. */
  method ReadTranscript(dataDir: string, stripped: seq<string>) returns (r: Result<Index, ParseError>)
    ensures Entries(stripped).Ok? ==> r == Ok(IndexOf(dataDir, Entries(stripped).value))
    ensures Entries(stripped).Err? ==> r == Err(Entries(stripped).error)
  {
    ghost var entries: seq<Entry> := [];
    var audioPaths: seq<string> := [];
    var transcripts: seq<string> := [];
    for i := 0 to |stripped|
      invariant Entries(stripped[..i]) == Ok(entries)
      invariant IndexOf(dataDir, entries) == Index(audioPaths, transcripts)
    {
      PrefixSnoc(stripped, i);
      EntriesSnoc(stripped[..i], stripped[i]);
      var parts := SplitEntry(stripped[i]);
      if parts.None? {
        EntriesStop(stripped, i + 1);
        return Err(NoSpace(i));
      }
      IndexOfSnoc(dataDir, entries, parts.value);
      audioPaths := audioPaths + [AudioPath(dataDir, parts.value.id)];
      transcripts := transcripts + [parts.value.transcript];
      entries := entries + [parts.value];
    }
    assert stripped[..|stripped|] == stripped;
    r := Ok(Index(audioPaths, transcripts));
  }

  /** `os.path.join(output_dir, output_filename)`. */
  function OutputPath(outputDir: string, audioPath: string): string {
    Join(outputDir, OutputName(audioPath))
  }

  /** A file saved by one entry: where it goes and the matrix in it. */
  datatype Saving = Saving(path: string, matrix: Matrix)

  /** What the entry for `audioPath` leaves behind: the `.npy` file of its
      matrix, or nothing when extraction returns `None` or `np.save` raises
      (the exception is caught and the loop goes on). */
  function EntrySaving(load: (string, MfccConfig) -> Attempt, outputDir: string, unwritable: set<string>,
                       audioPath: string): Option<Saving>
  {
    match ExtractMfcc(load, audioPath)
    case None => None
    case Some(m) =>
      var outputPath := OutputPath(outputDir, audioPath);
      if outputPath in unwritable then None else Some(Saving(outputPath, m))
  }

  /** The savings of a batch, entry by entry. */
  function Savings(load: (string, MfccConfig) -> Attempt, outputDir: string, unwritable: set<string>,
                   paths: seq<string>): (ss: seq<Option<Saving>>)
    ensures |ss| == |paths|
  {
    seq(|paths|, i requires 0 <= i < |paths| => EntrySaving(load, outputDir, unwritable, paths[i]))
  }

  /** The files after `savings` are carried out in order on `arrays`: each
      saving writes (or overwrites) its file. */
  function Apply(arrays: map<string, Matrix>, savings: seq<Option<Saving>>): map<string, Matrix>
    decreases |savings|
  {
    if savings == [] then arrays
    else
      var before := Apply(arrays, savings[..|savings| - 1]);
      match savings[|savings| - 1]
      case None => before
      case Some(s) => before[s.path := s.matrix]
  }

  /** Carrying out one saving more. */
  lemma ApplyStep(arrays: map<string, Matrix>, savings: seq<Option<Saving>>, i: nat)
    requires i < |savings|
    ensures Apply(arrays, savings[..i + 1]) ==
      match savings[i]
      case None => Apply(arrays, savings[..i])
      case Some(s) => Apply(arrays, savings[..i])[s.path := s.matrix]
  {
    PrefixSnoc(savings, i);
  }

  /** Savings are an overlay: they replace the files of the same name and
      leave every other file alone. */
  lemma {:induction false} ApplyOverlay(arrays: map<string, Matrix>, savings: seq<Option<Saving>>)
    ensures Apply(arrays, savings) == arrays + Apply(map[], savings)
    decreases |savings|
  {
    if savings != [] {
      ApplyOverlay(arrays, savings[..|savings| - 1]);
    }
  }

  /** Running the same batch again leaves the same files. */
  lemma ApplyIdempotent(arrays: map<string, Matrix>, savings: seq<Option<Saving>>)
    ensures Apply(Apply(arrays, savings), savings) == Apply(arrays, savings)
  {
    var written := Apply(map[], savings);
    ApplyOverlay(arrays, savings);
    ApplyOverlay(arrays + written, savings);
    assert (arrays + written) + written == arrays + written;
  }

  /** Whether some saving of `savings` goes to `f`. */
  predicate SavesTo(savings: seq<Option<Saving>>, f: string) {
    exists i :: 0 <= i < |savings| && savings[i].Some? && savings[i].value.path == f
  }

  /** One saving more goes to `f` when the earlier ones or the new one do. */
  lemma SavesToSnoc(savings: seq<Option<Saving>>, f: string)
    requires savings != []
    ensures var last := savings[|savings| - 1];
      SavesTo(savings, f) <==> SavesTo(savings[..|savings| - 1], f) || (last.Some? && last.value.path == f)
  {
    var init := savings[..|savings| - 1];
    assert forall i :: 0 <= i < |init| ==> init[i] == savings[i];
    if SavesTo(savings, f) {
      var i :| 0 <= i < |savings| && savings[i].Some? && savings[i].value.path == f;
      if i < |init| {
        assert init[i] == savings[i];
      }
    }
  }

  /** A file is present afterwards exactly when it was before or some saving
      goes to it. */
  lemma {:induction false} ApplyKeys(arrays: map<string, Matrix>, savings: seq<Option<Saving>>, f: string)
    ensures f in Apply(arrays, savings) <==> f in arrays || SavesTo(savings, f)
    decreases |savings|
  {
    if savings != [] {
      ApplyKeys(arrays, savings[..|savings| - 1], f);
      SavesToSnoc(savings, f);
    }
  }

  /** A file no saving goes to is left exactly as it was. */
  lemma {:induction false} ApplyUntouched(arrays: map<string, Matrix>, savings: seq<Option<Saving>>, f: string)
    requires !SavesTo(savings, f)
    ensures f in Apply(arrays, savings) <==> f in arrays
    ensures f in arrays ==> Apply(arrays, savings)[f] == arrays[f]
    decreases |savings|
  {
    if savings != [] {
      SavesToSnoc(savings, f);
      ApplyUntouched(arrays, savings[..|savings| - 1], f);
    }
  }

  /** A saved file holds the matrix of the last saving that goes to it. */
  lemma {:induction false} ApplyLast(arrays: map<string, Matrix>, savings: seq<Option<Saving>>, i: nat)
    requires i < |savings| && savings[i].Some?
    requires forall j :: i < j < |savings| && savings[j].Some? ==> savings[j].value.path != savings[i].value.path
    ensures savings[i].value.path in Apply(arrays, savings)
    ensures Apply(arrays, savings)[savings[i].value.path] == savings[i].value.matrix
    decreases |savings|
  {
    if i < |savings| - 1 {
      var init := savings[..|savings| - 1];
      assert init[i] == savings[i];
      assert forall j :: i < j < |init| ==> init[j] == savings[j];
      ApplyLast(arrays, init, i);
    }
  }

  /** An entry that saves nothing changes nothing: the batch ends as if it
      were not in the index. */
  lemma {:induction false} ApplySkipsFailure(arrays: map<string, Matrix>, before: seq<Option<Saving>>,
                                             after: seq<Option<Saving>>)
    ensures Apply(arrays, before + [None] + after) == Apply(arrays, before + after)
    decreases |after|
  {
    if after == [] {
      assert before + [None] + after == before + [None];
      assert (before + [None])[..|before|] == before;
      assert before + after == before;
    } else {
      var init := after[..|after| - 1];
      assert (before + [None] + after)[..|before| + 1 + |init|] == before + [None] + init;
      assert (before + after)[..|before| + |init|] == before + init;
      ApplySkipsFailure(arrays, before, init);
    }
  }

  /** An entry whose extraction raises, or whose output file cannot be
      written, saves nothing. */
  lemma EntrySavingFails(load: (string, MfccConfig) -> Attempt, outputDir: string, unwritable: set<string>,
                         audioPath: string)
    requires load(audioPath, DefaultConfig).Raised? || OutputPath(outputDir, audioPath) in unwritable
    ensures EntrySaving(load, outputDir, unwritable, audioPath) == None
  {
  }

  /** Entry `k` of a parsed index saves, if at all, to `<output_dir>/<id>.npy`
      when its id has no "/" and is not made of dots alone. */
  lemma SavingGoesToId(load: (string, MfccConfig) -> Attempt, outputDir: string, unwritable: set<string>,
                       dataDir: string, es: seq<Entry>, k: nat)
    requires k < |es| && '/' !in es[k].id && exists i :: 0 <= i < |es[k].id| && es[k].id[i] != '.'
    ensures var s := Savings(load, outputDir, unwritable, IndexOf(dataDir, es).audioPaths)[k];
      s.Some? ==> s.value.path == Join(outputDir, es[k].id + ".npy")
  {
    IndexOfAt(dataDir, es, k);
    OutputNameOfId(dataDir, es[k].id);
  }

  /** The output directory and the arrays saved in it. */
  class FeatureStore {
    var dirs: set<string>
    var arrays: map<string, Matrix>

    /** `process_vivos_dataset(data_dir, transcript_file, output_dir)` on an
        index whose contents are `text`. A line that does not split aborts
        the run before the output directory is made; otherwise the directory
        exists afterwards and every entry is tried in order, a failed one
        being skipped. */
    method ProcessVivosDataset(dataDir: string, text: string, outputDir: string,
                               load: (string, MfccConfig) -> Attempt, unwritable: set<string>)
      returns (r: Result<(), ParseError>)
      modifies this
      ensures match Entries(ReadStripped(text))
        case Err(e) => r == Err(e) && dirs == old(dirs) && arrays == old(arrays)
        case Ok(es) =>
          && r == Ok(())
          && dirs == old(dirs) + {outputDir}
          && arrays == Apply(old(arrays), Savings(load, outputDir, unwritable, IndexOf(dataDir, es).audioPaths))
    {
      var stripped := ReadStrippedLines(text);
      var read := ReadTranscript(dataDir, stripped);
      if read.Err? {
        return Err(read.error);
      }
      if outputDir !in dirs {
        dirs := dirs + {outputDir};
      }
      SaveAll(load, outputDir, unwritable, read.value.audioPaths);
      r := Ok(());
    }

    /** The saving loop: each audio path in order, a failed one being
        skipped. */
    method SaveAll(load: (string, MfccConfig) -> Attempt, outputDir: string, unwritable: set<string>,
                   paths: seq<string>)
      modifies this`arrays
      ensures arrays == Apply(old(arrays), Savings(load, outputDir, unwritable, paths))
    {
      ghost var savings := Savings(load, outputDir, unwritable, paths);
      for i := 0 to |paths|
        invariant arrays == Apply(old(arrays), savings[..i])
      {
        ApplyStep(old(arrays), savings, i);
        SaveEntry(load, outputDir, unwritable, paths[i]);
      }
      assert savings[..|paths|] == savings;
    }

    /** One iteration of the saving loop: extract the features of
        `audioPath` and save them, unless extraction returns `None` or the
        output file cannot be written. */
    method SaveEntry(load: (string, MfccConfig) -> Attempt, outputDir: string, unwritable: set<string>,
                     audioPath: string)
      modifies this`arrays
      ensures arrays ==
        match EntrySaving(load, outputDir, unwritable, audioPath)
        case None => old(arrays)
        case Some(s) => old(arrays)[s.path := s.matrix]
    {
      var mfccs := ExtractMfcc(load, audioPath);
      if mfccs.Some? {
        var outputPath := OutputPath(outputDir, audioPath);
        if outputPath !in unwritable {
          arrays := arrays[outputPath := mfccs.value];
        }
      }
    }
  }
}

=== FILE: line_files.dfy ===
/**
 * Transcript index files as Python's text mode sees them: what
 * `f.write(sample + '\n')` leaves on disk, and the lines that
 * `for line in f` then yields (universal newlines: "\r\n" and a lone "\r"
 * read as "\n").
 */
module LineFiles {
  import opened Results
  import opened Text
  import opened Seqs

  /** What `'\n'` becomes on disk: `os.linesep` is "\n" on POSIX and
      "\r\n" on Windows. */
  datatype Newline = Lf | CrLf

  function Terminator(nl: Newline): string {
    match nl
    case Lf => "\n"
    case CrLf => "\r\n"
  }

  /** The contents of a file after `f.write(sample + '\n')` for each sample,
      in order, for samples without `'\n'` (text mode would also translate
      a newline inside a sample). */
  function WriteLines(samples: seq<string>, nl: Newline): string {
    if samples == [] then [] else samples[0] + Terminator(nl) + WriteLines(samples[1..], nl)
  }

  /** Universal-newline translation on reading: "\r\n" and a lone "\r" each
      become "\n"; nothing else changes. */
  function Translate(t: string): (r: string)
    ensures '\r' !in r
    ensures '\r' !in t ==> r == t
  {
    if t == [] then []
    else if t[0] == '\r' then
      "\n" + Translate(if |t| > 1 && t[1] == '\n' then t[2..] else t[1..])
    else [t[0]] + Translate(t[1..])
  }

  /** The lines `for line in f` yields from translated text `t`, each without
      its "\n": a final "\n" ends the last line rather than starting an empty
      one, and empty text has no lines. */
  function Lines(t: string): (ls: seq<string>)
    ensures forall i :: 0 <= i < |ls| ==> '\n' !in ls[i]
    ensures forall i, c :: 0 <= i < |ls| && c in ls[i] ==> c in t
    decreases |t|
  {
    if t == [] then []
    else
      match FindChar(t, '\n')
      case None => [t]
      case Some(i) =>
        var rest := Lines(t[i + 1..]);
        assert forall j, c :: 0 <= j < |rest| && c in rest[j] ==> c in t by {
          forall j, c | 0 <= j < |rest| && c in rest[j] ensures c in t {
            assert c in t[i + 1..];
          }
        }
        [t[..i]] + rest
  }

  /** Text without a "\n" is one line, whether or not a "\n" would end
      it: an unterminated last line is read like any other. */
  lemma LinesUnterminated(t: string)
    requires t != [] && '\n' !in t
    ensures Lines(t) == [t]
  {
  }

  /** A line ended by "\n" comes first, followed by the lines of the rest. */
  lemma LinesCons(s: string, rest: string)
    requires '\n' !in s
    ensures Lines(s + "\n" + rest) == [s] + Lines(rest)
  {
    var t := s + "\n" + rest;
    assert t[..|s|] == s && t[|s|] == '\n';
    assert FindChar(t, '\n') == Some(|s|);
    assert t[|s| + 1..] == rest;
  }

  /** `for line in f` yields each line with its "\n"; stripping it with the
      "\n" gives what stripping it without the "\n" gives. */
  lemma StripTerminatedLine(x: string)
    ensures Strip(x + "\n") == Strip(x)
  {
    assert IsSpace('\n');
    StripSpaceSnoc(x, '\n');
  }

  /** `[line.strip() for line in f]` for a file whose contents are `text`. */
  function ReadStripped(text: string): (r: seq<string>)
  {
    StripAll(Lines(Translate(text)))
  }

  /** `[line.strip() for line in lines]`. */
  function StripAll(lines: seq<string>): (r: seq<string>)
    ensures |r| == |lines|
    ensures forall i :: 0 <= i < |lines| ==> r[i] == Strip(lines[i])
  {
    if lines == [] then [] else
      var init := StripAll(lines[..|lines| - 1]);
      MapSnoc(Strip, init, lines);
      init + [Strip(lines[|lines| - 1])]
  }

  /** The reading loop itself: each line of the file, stripped, in order. */
  method ReadStrippedLines(text: string) returns (stripped: seq<string>)
    ensures stripped == ReadStripped(text)
  {
    var lines := Lines(Translate(text));
    stripped := [];
    for i := 0 to |lines|
      invariant stripped == StripAll(lines[..i])
    {
      PrefixSnoc(lines, i);
      stripped := stripped + [Strip(lines[i])];
    }
    assert lines[..|lines|] == lines;
  }

  /** A line that survives a write and a read unchanged: already stripped and
      free of line breaks. */
  predicate IsClean(s: string) {
    IsStripped(s) && '\n' !in s && '\r' !in s
  }

  /** Every line read back with `strip()` is clean. */
  lemma ReadStrippedClean(text: string)
    ensures forall x :: x in ReadStripped(text) ==> IsClean(x)
  {
    var t := Translate(text);
    var ls := Lines(t);
    forall i | 0 <= i < |ls| ensures IsClean(Strip(ls[i])) {
      assert '\r' !in ls[i];
    }
  }

  /** Reading back a line that has no "\r" in front of what follows. */
  lemma {:induction false} TranslatePlain(s: string, rest: string)
    requires '\r' !in s
    ensures Translate(s + rest) == s + Translate(rest)
  {
    if s != [] {
      var t := s + rest;
      assert t[0] == s[0] && t[1..] == s[1..] + rest;
      TranslatePlain(s[1..], rest);
      calc {
        Translate(t);
        [s[0]] + Translate(s[1..] + rest);
        [s[0]] + (s[1..] + Translate(rest));
        ([s[0]] + s[1..]) + Translate(rest);
        { assert [s[0]] + s[1..] == s; }
        s + Translate(rest);
      }
    } else {
      assert s + rest == rest;
    }
  }

  /** Reading back a terminator followed by more text. */
  lemma TranslateTerminator(nl: Newline, rest: string)
    ensures Translate(Terminator(nl) + rest) == Terminator(Lf) + Translate(rest)
  {
    match nl
    case Lf =>
      assert (Terminator(nl) + rest)[1..] == rest;
    case CrLf =>
      assert (Terminator(nl) + rest)[2..] == rest;
  }

  /** Whichever terminator was written, translation gives back the "\n"
      version of the file. */
  lemma {:induction false} TranslateWritten(samples: seq<string>, nl: Newline)
    requires forall i :: 0 <= i < |samples| ==> '\r' !in samples[i]
    ensures Translate(WriteLines(samples, nl)) == WriteLines(samples, Lf)
  {
    if samples != [] {
      var s, rest := samples[0], WriteLines(samples[1..], nl);
      TranslateWritten(samples[1..], nl);
      WriteLinesCons(samples, nl);
      WriteLinesCons(samples, Lf);
      TranslatePlain(s, Terminator(nl) + rest);
      TranslateTerminator(nl, rest);
    }
  }

  /** The file written for a non-empty list: the first sample, its
      terminator, then the file for the rest. */
  lemma WriteLinesCons(samples: seq<string>, nl: Newline)
    requires samples != []
    ensures WriteLines(samples, nl) == samples[0] + (Terminator(nl) + WriteLines(samples[1..], nl))
  {
  }

  /** Splitting a "\n"-terminated file gives back the lines written. */
  lemma {:induction false} LinesWritten(samples: seq<string>)
    requires forall i :: 0 <= i < |samples| ==> '\n' !in samples[i]
    ensures Lines(WriteLines(samples, Lf)) == samples
  {
    if samples != [] {
      var s, rest := samples[0], WriteLines(samples[1..], Lf);
      assert WriteLines(samples, Lf) == s + "\n" + rest;
      LinesCons(s, rest);
      LinesWritten(samples[1..]);
    }
  }

  /** Write/read round trip: writing clean samples one per line and reading
      them back with `strip()` yields the same samples, in order. */
  lemma WriteReadRoundTrip(samples: seq<string>, nl: Newline)
    requires forall i :: 0 <= i < |samples| ==> IsClean(samples[i])
    ensures ReadStripped(WriteLines(samples, nl)) == samples
  {
    TranslateWritten(samples, nl);
    LinesWritten(samples);
  }

  /** A sample with an internal line break does not survive the round trip:
      it comes back as two lines. */
  lemma InternalNewlineSplits()
    ensures ReadStripped(WriteLines(["a\nb"], Lf)) == ["a", "b"]
  {
    assert WriteLines(["a\nb"], Lf) == WriteLines(["a", "b"], Lf) by {
      assert WriteLines(["a", "b"], Lf) == "a" + "\n" + WriteLines(["b"], Lf);
      assert ["a", "b"][1..] == ["b"];
    }
    assert IsClean("a") && IsClean("b");
    WriteReadRoundTrip(["a", "b"], Lf);
  }
}

=== FILE: paths.dfy ===
/**
 * The `posixpath` functions the batch driver uses to name its inputs and
 * outputs: `join`, `basename` and the root part of `splitext`.
 */
module Paths {
  import opened Results

  /** `os.path.join(a, b)`: an absolute `b` replaces `a`; otherwise a "/" is
      inserted unless `a` is empty or already ends with one. */
  function Join(a: string, b: string): string
  {
    if b != [] && b[0] == '/' then b
    else if a == [] || a[|a| - 1] == '/' then a + b
    else a + "/" + b
  }

  /** The position of the last `c` in `s`, if any. */
  function LastIndex(s: string, c: char): (r: Option<nat>)
    ensures r.None? <==> c !in s
    ensures r.Some? ==> r.value < |s| && s[r.value] == c && c !in s[r.value + 1..]
  {
    if s == [] then None
    else if s[|s| - 1] == c then Some(|s| - 1)
    else
      var r := LastIndex(s[..|s| - 1], c);
      assert r.Some? ==> s[r.value + 1..] == s[..|s| - 1][r.value + 1..] + [s[|s| - 1]];
      r
  }

  /** `os.path.basename(p)`: the longest suffix of `p` without a "/". */
  function Basename(p: string): (b: string)
    ensures |b| <= |p| && b == p[|p| - |b|..]
    ensures '/' !in b
    ensures |b| < |p| ==> p[|p| - |b| - 1] == '/'
  {
    if p == [] then []
    else if p[|p| - 1] == '/' then []
    else
      var b := Basename(p[..|p| - 1]);
      assert p[|p| - |b| - 1..] == p[..|p| - 1][|p| - 1 - |b|..] + [p[|p| - 1]];
      b + [p[|p| - 1]]
  }

  /** `os.path.splitext(p)[0]`: `p` without its last extension. The extension
      starts at the last "." of the last path component, and only if some
      character before that dot in the component is not a dot (so ".bashrc"
      and "..wav" have no extension). */
  function SplitExtRoot(p: string): (root: string)
    ensures |root| <= |p| && root == p[..|root|]
  {
    var start := match LastIndex(p, '/') case None => 0 case Some(i) => i + 1;
    match LastIndex(p, '.')
    case None => p
    case Some(d) =>
      if start <= d && exists i :: start <= i < d && p[i] != '.' then p[..d] else p
  }

  /** Appending a "/"-free name to a directory that is empty or ends in "/"
      gives a path whose basename is that name. */
  lemma {:induction false} BasenameAppend(a: string, b: string)
    requires '/' !in b && (a == [] || a[|a| - 1] == '/')
    ensures Basename(a + b) == b
    decreases |b|
  {
    if b == [] {
      assert a + b == a;
    } else {
      var init, last := b[..|b| - 1], b[|b| - 1];
      assert b == init + [last];
      assert a + b == (a + init) + [last];
      BasenameAppend(a, init);
      BasenameSnoc(a + init, last);
    }
  }

  /** A last character other than "/" extends the basename. */
  lemma BasenameSnoc(p: string, c: char)
    requires c != '/'
    ensures Basename(p + [c]) == Basename(p) + [c]
  {
    assert (p + [c])[..|p|] == p;
  }

  /** The basename of `join(dir, name)` for a "/"-free `name` is `name`. */
  lemma BasenameOfJoin(dir: string, name: string)
    requires '/' !in name
    ensures Basename(Join(dir, name)) == name
  {
    if !(name != [] && name[0] == '/') {
      if dir == [] || dir[|dir| - 1] == '/' {
        BasenameAppend(dir, name);
      } else {
        assert dir + "/" + name == (dir + "/") + name;
        BasenameAppend(dir + "/", name);
      }
    }
  }

  /** `LastIndex` finds the `c` at `k` when no `c` follows it. */
  lemma LastIndexIs(s: string, c: char, k: nat)
    requires k < |s| && s[k] == c && c !in s[k + 1..]
    ensures LastIndex(s, c) == Some(k)
  {
    assert c in s;
  }

  /** `splitext` of `<stem>.<ext>`, for a "/"-free stem that is not all
      dots and an extension without "." or "/", takes the extension off. */
  lemma SplitExtRootOfExt(stem: string, ext: string)
    requires '/' !in stem && '/' !in ext && '.' !in ext
    requires exists i :: 0 <= i < |stem| && stem[i] != '.'
    ensures SplitExtRoot(stem + "." + ext) == stem
  {
    var p := stem + "." + ext;
    assert p[|stem| + 1..] == ext;
    LastIndexIs(p, '.', |stem|);
    assert '/' !in p by {
      forall j | 0 <= j < |p| ensures p[j] != '/' {
        if j < |stem| { assert p[j] == stem[j]; }
        else if j > |stem| { assert p[j] == ext[j - |stem| - 1]; }
      }
    }
    var i :| 0 <= i < |stem| && stem[i] != '.';
    assert p[i] == stem[i];
    assert p[..|stem|] == stem;
  }

  /** ... but a stem made of dots alone leaves `<stem>.<ext>` whole: the
      last dot only follows other dots. */
  lemma SplitExtRootOfDots(stem: string, ext: string)
    requires '/' !in ext && '.' !in ext
    requires forall i :: 0 <= i < |stem| ==> stem[i] == '.'
    ensures SplitExtRoot(stem + "." + ext) == stem + "." + ext
  {
    var p := stem + "." + ext;
    assert p[|stem| + 1..] == ext;
    LastIndexIs(p, '.', |stem|);
    assert '/' !in p by {
      forall j | 0 <= j < |p| ensures p[j] != '/' {
        if j < |stem| { assert p[j] == stem[j]; }
        else if j > |stem| { assert p[j] == ext[j - |stem| - 1]; }
      }
    }
    assert forall i :: 0 <= i < |stem| ==> p[i] == stem[i];
  }
}

=== FILE: pipeline.dfy ===
/**
 * `main` of the split script: split the transcript index
 * `<train>/train.txt`, then move the audio of the dev utterances, reading
 * the dev index the first step has just written.
 */
module Pipeline {
  import opened Results
  import opened Text
  import opened LineFiles
  import opened Paths
  import opened Speakers
  import opened TranscriptSplit
  import opened Relocation

  /** `os.path.join(opt.train_path, "train.txt")`. */
  function TrainIndexPath(trainPath: string): string {
    Join(trainPath, "train.txt")
  }

  /** How a run of `main` ends: `split_transcript` raises, or the audio
      step runs and ends as `split_wav_files` does. */
  datatype RunOutcome = SplitFailed(error: SplitError) | Moved(outcome: Outcome)

  /** `main()` on a corpus whose train index holds `text`. The dev index the
      split writes is read back by the move step as exactly the drawn dev
      samples, so the move step moves the audio those samples select: of
      all 46 speakers, or of those before the first missing train
      directory. */
  method Run(corpus: Corpus, trainPath: string, text: string, ratio: real, picks: seq<nat>,
             nl: Newline, blocked: set<Loc>)
    returns (outcome: RunOutcome, written: map<string, string>)
    requires corpus.Valid()
    requires var n := |ReadStripped(text)|;
      0 <= DevCount(n, ratio) <= n ==> IsDraw(picks, n, DevCount(n, ratio))
    modifies corpus
    ensures corpus.Valid()
    ensures outcome.SplitFailed? ==>
      && !(0 <= DevCount(|ReadStripped(text)|, ratio) <= |ReadStripped(text)|)
      && outcome.error == SampleSizeError(DevCount(|ReadStripped(text)|, ratio), |ReadStripped(text)|)
      && written == map[]
      && corpus.files == old(corpus.files) && corpus.dirs == old(corpus.dirs)
    ensures outcome.Moved? ==>
      && 0 <= DevCount(|ReadStripped(text)|, ratio) <= |ReadStripped(text)|
      && DevPath(TrainIndexPath(trainPath)) in written
      && written.Keys == {NewTrainPath(TrainIndexPath(trainPath)), DevPath(TrainIndexPath(trainPath))}
      && ReadStripped(written[DevPath(TrainIndexPath(trainPath))]) == Select(ReadStripped(text), picks)
      && ReadStripped(written[NewTrainPath(TrainIndexPath(trainPath))])
           == Train(ReadStripped(text), Select(ReadStripped(text), picks))
    ensures outcome == Moved(Completed) ==>
      && (forall j :: 1 <= j <= SpeakerCount ==> SpeakerDir(TrainRoot, SpeakerId(j)) in old(corpus.dirs))
      && corpus.dirs == old(corpus.dirs) + {RootDir(DevRoot)} + DevDirsBefore(SpeakerCount + 1)
      && corpus.files == Relocated(old(corpus.files), Select(ReadStripped(text), picks), blocked)
    ensures outcome.Moved? && outcome.outcome.ListingFailed? ==>
      var i := outcome.outcome.speaker;
      && 1 <= i <= SpeakerCount
      && SpeakerDir(TrainRoot, SpeakerId(i)) !in old(corpus.dirs)
      && (forall j :: 1 <= j < i ==> SpeakerDir(TrainRoot, SpeakerId(j)) in old(corpus.dirs))
      && corpus.dirs == old(corpus.dirs) + {RootDir(DevRoot)} + DevDirsBefore(i + 1)
      && corpus.files == AfterMoves(old(corpus.files), TrainLocs(old(corpus.files), SpeakersBefore(i)),
                                    Select(ReadStripped(text), picks), blocked)
  {
    RunPathsDiffer(trainPath);
    var split;
    split, written := SplitTranscript(TrainIndexPath(trainPath), text, ratio, picks, nl);
    if split.Err? {
      return SplitFailed(split.error), written;
    }
    ghost var dev := Select(ReadStripped(text), picks);
    var devText := written[split.value.devPath];
    assert ReadStripped(devText) == dev;
    var o := corpus.Relocate(devText, blocked);
    outcome := Moved(o);
  }

  /** The index `main` splits ends in `train.txt`, so the new train index
      and the dev index it writes are two different files. */
  lemma RunPathsDiffer(trainPath: string)
    ensures NewTrainPath(TrainIndexPath(trainPath)) != DevPath(TrainIndexPath(trainPath))
  {
    var p := TrainIndexPath(trainPath);
    var k := |p| - |TrainFile|;
    assert p[k..] == TrainFile;
    assert OccursAt(TrainFile, p, k);
    ReplaceAllLonger(p, TrainFile, NewTrainFile, DevFile);
  }

  /** Speaker number `i` is one of the 46 the move step visits. */
  lemma VisitedSpeaker(i: nat)
    requires 1 <= i <= SpeakerCount
    ensures SpeakerId(i) in AllSpeakers()
  {
  }

  /** A drawn dev sample `<id> <transcript>` takes its audio along: the file
      `<id>.wav` of any of the 46 speakers, whose move does not raise, ends
      up in that speaker's dev directory with the same contents and is gone
      from the train directory. */
  lemma DevUtteranceMoved(data: seq<string>, picks: seq<nat>, files: map<Loc, Blob>, blocked: set<Loc>,
                          j: nat, id: string, transcript: string, i: nat)
    requires forall p :: 0 <= p < |picks| ==> picks[p] < |data|
    requires j < |picks| && Select(data, picks)[j] == id + " " + transcript
    requires 1 <= i <= SpeakerCount
    requires Loc(TrainRoot, SpeakerId(i), id + ".wav") in files
    requires Loc(TrainRoot, SpeakerId(i), id + ".wav") !in blocked
    ensures var l := Loc(TrainRoot, SpeakerId(i), id + ".wav");
      var after := Relocated(files, Select(data, picks), blocked);
      && l !in after
      && Loc(DevRoot, SpeakerId(i), id + ".wav") in after
      && after[Loc(DevRoot, SpeakerId(i), id + ".wav")] == files[l]
  {
    var l := Loc(TrainRoot, SpeakerId(i), id + ".wav");
    DevLineSelectsItsFile(id, transcript, Select(data, picks), j);
    VisitedSpeaker(i);
    RelocatedMovesDevFile(files, Select(data, picks), blocked, l);
  }
}

=== FILE: relocation.dfy ===
/**
 * `split_wav_files`: moves the audio files of the dev utterances from the
 * training tree `<train>/waves/<speaker>/` to the mirrored dev tree
 * `<dev>/waves/<speaker>/`.
 *
 * The two trees are a `Corpus` object: the directories that exist and a map
 * from file location to file contents. A move that raises is caught by the
 * source and leaves everything as it was; which moves raise is the
 * parameter `blocked`.
 */
module Relocation {
  import opened Results
  import opened Text
  import opened LineFiles
  import opened Speakers
  import opened Seqs

  /** The two audio roots, `opt.train_path` and `opt.dev_path`. */
  datatype Root = TrainRoot | DevRoot

  /** The file `<root>/waves/<speaker>/<name>`. */
  datatype Loc = Loc(root: Root, speaker: string, name: string)

  /** A root directory, or the speaker directory `<root>/waves/<speaker>`. */
  datatype Dir = RootDir(root: Root) | SpeakerDir(root: Root, speaker: string)

  /** Audio file contents, which a move carries unchanged. */
  type Blob = seq<bv8>

  /** `filename.endswith(".wav")`. */
  predicate IsWav(name: string) {
    EndsWith(name, ".wav")
  }

  /** `filename[:-4]` for a `.wav` file. */
  function Stem(name: string): (stem: string)
    requires IsWav(name)
    ensures stem + ".wav" == name
  {
    name[..|name| - 4]
  }

  /** The dev membership test of the source: the file is a `.wav` file and
      some dev line starts with its name minus the extension. */
  predicate IsDevFile(name: string, devLines: seq<string>) {
    IsWav(name) && exists i :: 0 <= i < |devLines| && StartsWith(devLines[i], Stem(name))
  }

  /** The search loop with its `is_dev_file` flag and `break`: reports whether
      some dev line starts with `stem`. */
  method FindDevMatch(stem: string, devLines: seq<string>) returns (isDev: bool)
    ensures isDev <==> exists i :: 0 <= i < |devLines| && StartsWith(devLines[i], stem)
  {
    isDev := false;
    var i := 0;
    while i < |devLines|
      invariant 0 <= i <= |devLines|
      invariant forall j :: 0 <= j < i ==> !StartsWith(devLines[j], stem)
    {
      if StartsWith(devLines[i], stem) {
        isDev := true;
        break;
      }
      i := i + 1;
    }
  }

  /** An utterance whose dev line is `<id> <text>` selects the file
      `<id>.wav`. */
  lemma DevLineSelectsItsFile(id: string, text: string, devLines: seq<string>, i: nat)
    requires i < |devLines| && devLines[i] == id + " " + text
    ensures IsDevFile(id + ".wav", devLines)
  {
    assert Stem(id + ".wav") == id;
    assert devLines[i][..|id|] == id;
  }

  /** The prefix test also selects a file whose id is merely a prefix of
      another utterance's id: `S1.wav` is taken for the dev line of `S12`. */
  lemma PrefixTestOverreaches()
    ensures IsDevFile("S1.wav", ["S12 text"])
  {
    assert Stem("S1.wav") == "S1";
    assert StartsWith(["S12 text"][0], "S1");
  }

  /** The same file name in the other root. */
  function DevTwin(l: Loc): Loc {
    Loc(DevRoot, l.speaker, l.name)
  }

  function TrainTwin(l: Loc): Loc {
    Loc(TrainRoot, l.speaker, l.name)
  }

  /** The move of `l` happens: the run has listed it (it is in `listed`), it
      passes the dev test and its move does not raise. */
  ghost predicate Moves(l: Loc, listed: set<Loc>, devLines: seq<string>, blocked: set<Loc>) {
    l in listed && l.root == TrainRoot && IsDevFile(l.name, devLines) && l !in blocked
  }

  /** Dev location `k` receives the file moved from its train twin. */
  ghost predicate Receives(files: map<Loc, Blob>, k: Loc, listed: set<Loc>, devLines: seq<string>, blocked: set<Loc>) {
    k.root == DevRoot && TrainTwin(k) in files && Moves(TrainTwin(k), listed, devLines, blocked)
  }

  /** The dev twins of a set of locations. */
  ghost function DevTwins(locs: set<Loc>): set<Loc> {
    set l | l in locs :: DevTwin(l)
  }

  /** The files after every listed move has been attempted: a moved file is
      gone from its train location and sits, with the same contents, at its
      dev twin (replacing what was there); everything else is as before. */
  ghost function AfterMoves(files: map<Loc, Blob>, listed: set<Loc>, devLines: seq<string>, blocked: set<Loc>): map<Loc, Blob> {
    map k | k in files.Keys + DevTwins(files.Keys)
              && (Receives(files, k, listed, devLines, blocked) || (k in files && !Moves(k, listed, devLines, blocked)))
          :: if Receives(files, k, listed, devLines, blocked) then files[TrainTwin(k)] else files[k]
  }

  /** The train files of the speakers in `speakers`: what their listings hold. */
  ghost function TrainLocs(files: map<Loc, Blob>, speakers: set<string>): set<Loc> {
    set l | l in files && l.root == TrainRoot && l.speaker in speakers
  }

  /** The speakers the loop has visited before speaker number `i`. */
  ghost function SpeakersBefore(i: nat): set<string>
    requires i <= SpeakerCount + 1
  {
    set j: nat | 1 <= j < i :: SpeakerId(j)
  }

  /** The mirrored dev directories the loop has made up to speaker `i - 1`. */
  ghost function DevDirsBefore(i: nat): set<Dir>
    requires i <= SpeakerCount + 1
  {
    set j: nat | 1 <= j < i :: SpeakerDir(DevRoot, SpeakerId(j))
  }

  /** The loop makes directories in the dev root only. */
  lemma DevDirsInDevRoot(i: nat)
    requires i <= SpeakerCount + 1
    ensures forall d :: d in DevDirsBefore(i) ==> d.root == DevRoot
  {
  }

  /** The train speaker directories the loop has listed before speaker
      number `i`. */
  ghost function TrainDirsBefore(i: nat): set<Dir>
    requires i <= SpeakerCount + 1
  {
    set j: nat | 1 <= j < i :: SpeakerDir(TrainRoot, SpeakerId(j))
  }

  lemma TrainDirsStep(i: nat)
    requires 1 <= i <= SpeakerCount
    ensures TrainDirsBefore(i + 1) == TrainDirsBefore(i) + {SpeakerDir(TrainRoot, SpeakerId(i))}
  {
  }

  lemma TrainDirsListed(i: nat)
    requires i <= SpeakerCount + 1
    ensures forall j :: 1 <= j < i ==> SpeakerDir(TrainRoot, SpeakerId(j)) in TrainDirsBefore(i)
  {
  }

  /** Making the dev directory of speaker number `i` extends the dev
      directories made so far by that one. */
  lemma AddDevDir(dirs0: set<Dir>, before: set<Dir>, after: set<Dir>, i: nat)
    requires 1 <= i <= SpeakerCount
    requires before == dirs0 + {RootDir(DevRoot)} + DevDirsBefore(i)
    requires after == before + {SpeakerDir(DevRoot, SpeakerId(i)), RootDir(DevRoot)}
    ensures after == dirs0 + {RootDir(DevRoot)} + DevDirsBefore(i + 1)
  {
    assert DevDirsBefore(i + 1) == DevDirsBefore(i) + {SpeakerDir(DevRoot, SpeakerId(i))};
  }

  /** All 46 speakers. */
  ghost function AllSpeakers(): set<string> {
    SpeakersBefore(SpeakerCount + 1)
  }

  /** The speakers the loop visits, as a set, are those listed in visiting
      order. */
  lemma AllSpeakersListed(id: string)
    ensures id in AllSpeakers() <==> id in SpeakerIds()
  {
    if id in AllSpeakers() {
      var j: nat :| 1 <= j < SpeakerCount + 1 && SpeakerId(j) == id;
      assert SpeakerIds()[j - 1] == id;
    }
    if id in SpeakerIds() {
      var k :| 0 <= k < SpeakerCount && SpeakerIds()[k] == id;
      assert SpeakerId(k + 1) in SpeakersBefore(SpeakerCount + 1);
    }
  }

  /** The files after a run that visited every speaker. */
  ghost function Relocated(files: map<Loc, Blob>, devLines: seq<string>, blocked: set<Loc>): map<Loc, Blob> {
    AfterMoves(files, TrainLocs(files, AllSpeakers()), devLines, blocked)
  }

  /** A train file that has not been listed yet is untouched. */
  lemma AfterMovesUnlisted(files: map<Loc, Blob>, listed: set<Loc>, devLines: seq<string>, blocked: set<Loc>, l: Loc)
    requires l.root == TrainRoot && l !in listed
    ensures l in AfterMoves(files, listed, devLines, blocked) <==> l in files
    ensures l in files ==> AfterMoves(files, listed, devLines, blocked)[l] == files[l]
  {
  }

  /** Attempting one more move changes only the moved file and its dev
      twin: listing one more train file is one more iteration of the loop. */
  lemma AfterMovesStep(files: map<Loc, Blob>, listed: set<Loc>, devLines: seq<string>, blocked: set<Loc>, l: Loc)
    requires l in files && l.root == TrainRoot && l !in listed
    ensures AfterMoves(files, listed + {l}, devLines, blocked)
         == MoveOne(AfterMoves(files, listed, devLines, blocked), l, devLines, blocked)
  {
    var after := AfterMoves(files, listed + {l}, devLines, blocked);
    var want := MoveOne(AfterMoves(files, listed, devLines, blocked), l, devLines, blocked);
    forall k ensures (k in after <==> k in want) && (k in after ==> after[k] == want[k]) {
      AfterMovesStepAt(files, listed, devLines, blocked, l, k);
    }
    assert after.Keys == want.Keys;
  }

  /** `AfterMovesStep` at one location. */
  lemma AfterMovesStepAt(files: map<Loc, Blob>, listed: set<Loc>, devLines: seq<string>, blocked: set<Loc>, l: Loc, k: Loc)
    requires l in files && l.root == TrainRoot && l !in listed
    ensures var after := AfterMoves(files, listed + {l}, devLines, blocked);
      var want := MoveOne(AfterMoves(files, listed, devLines, blocked), l, devLines, blocked);
      (k in after <==> k in want) && (k in after ==> after[k] == want[k])
  {
    var before := AfterMoves(files, listed, devLines, blocked);
    var after := AfterMoves(files, listed + {l}, devLines, blocked);
    AfterMovesUnlisted(files, listed, devLines, blocked, l);
    var d := DevTwin(l);
    if k == l {
    } else if k == d {
      assert TrainTwin(d) == l && d in DevTwins(files.Keys);
      if !(IsDevFile(l.name, devLines) && l !in blocked) {
        assert Receives(files, d, listed + {l}, devLines, blocked) == Receives(files, d, listed, devLines, blocked);
      }
    } else {
      AfterMovesOther(files, listed, devLines, blocked, l, k);
    }
  }

  /** Listing `l` leaves every location other than `l` and its dev twin as
      it was. */
  lemma AfterMovesOther(files: map<Loc, Blob>, listed: set<Loc>, devLines: seq<string>, blocked: set<Loc>, l: Loc, k: Loc)
    requires k != l && k != DevTwin(l)
    ensures var before := AfterMoves(files, listed, devLines, blocked);
      var after := AfterMoves(files, listed + {l}, devLines, blocked);
      (k in after <==> k in before) && (k in after ==> after[k] == before[k])
  {
    assert Moves(k, listed + {l}, devLines, blocked) == Moves(k, listed, devLines, blocked);
    assert k == Loc(k.root, k.speaker, k.name);
    assert k.root == DevRoot ==> TrainTwin(k) != l;
    assert Receives(files, k, listed + {l}, devLines, blocked) == Receives(files, k, listed, devLines, blocked);
  }

  /** The train files `<speaker>/<name>` for the names in `names`. */
  ghost function Named(speaker: string, names: set<string>): (locs: set<Loc>)
    ensures forall l :: l in locs <==> l.root == TrainRoot && l.speaker == speaker && l.name in names
  {
    set n | n in names :: Loc(TrainRoot, speaker, n)
  }

  /** Listing one more name adds its train file. */
  lemma NamedAdd(listed0: set<Loc>, speaker: string, done: set<string>, name: string)
    ensures listed0 + Named(speaker, done) + {Loc(TrainRoot, speaker, name)} == listed0 + Named(speaker, done + {name})
  {
  }

  /** A speaker's whole listing names exactly its train files. */
  lemma NamedListing(files: map<Loc, Blob>, speaker: string, names: set<string>)
    requires forall n :: n in names <==> Loc(TrainRoot, speaker, n) in files
    ensures Named(speaker, names) == TrainLocs(files, {speaker})
  {
  }

  /** One iteration of the listing loop on `files`: the file `src` moves to
      its dev twin when it exists, passes the dev test and its move does not
      raise; otherwise nothing changes. */
  ghost function MoveOne(files: map<Loc, Blob>, src: Loc, devLines: seq<string>, blocked: set<Loc>): map<Loc, Blob> {
    if src in files && IsDevFile(src.name, devLines) && src !in blocked
    then (files - {src})[DevTwin(src) := files[src]]
    else files
  }

  /** The listing loop over the names of one speaker's train directory, in
      the order `os.listdir` returned them. */
  ghost function MoveEach(files: map<Loc, Blob>, speaker: string, order: seq<string>,
                          devLines: seq<string>, blocked: set<Loc>): map<Loc, Blob>
  {
    if order == [] then files
    else MoveOne(MoveEach(files, speaker, order[..|order| - 1], devLines, blocked),
                 Loc(TrainRoot, speaker, order[|order| - 1]), devLines, blocked)
  }

  /** The listing loop, in any order, attempts exactly the moves of the
      listed files: the result depends on the set of names only. */
  lemma {:induction false} MoveEachAfterMoves(files0: map<Loc, Blob>, listed0: set<Loc>, speaker: string,
                                              order: seq<string>, names: set<string>,
                                              devLines: seq<string>, blocked: set<Loc>)
    requires forall l :: l in listed0 ==> l.speaker != speaker
    requires forall n :: n in order <==> n in names
    requires forall n :: n in names ==> Loc(TrainRoot, speaker, n) in files0
    requires NoRepeats(order)
    ensures MoveEach(AfterMoves(files0, listed0, devLines, blocked), speaker, order, devLines, blocked)
         == AfterMoves(files0, listed0 + Named(speaker, names), devLines, blocked)
    decreases |order|
  {
    if order == [] {
      assert Named(speaker, names) == {};
      assert listed0 + {} == listed0;
    } else {
      var init, last := order[..|order| - 1], order[|order| - 1];
      var rest := names - {last};
      LastListed(order, names);
      MoveEachAfterMoves(files0, listed0, speaker, init, rest, devLines, blocked);
      var src := Loc(TrainRoot, speaker, last);
      AfterMovesStep(files0, listed0 + Named(speaker, rest), devLines, blocked, src);
      NamedAdd(listed0, speaker, rest, last);
    }
  }

  /** The order in which `os.listdir` returns the names does not matter. */
  lemma ListingOrderIrrelevant(files0: map<Loc, Blob>, speaker: string, order1: seq<string>, order2: seq<string>,
                               devLines: seq<string>, blocked: set<Loc>)
    requires forall n :: n in order1 <==> Loc(TrainRoot, speaker, n) in files0
    requires forall n :: n in order2 <==> Loc(TrainRoot, speaker, n) in files0
    requires NoRepeats(order1) && NoRepeats(order2)
    ensures MoveEach(files0, speaker, order1, devLines, blocked) == MoveEach(files0, speaker, order2, devLines, blocked)
  {
    var names := set l | l in files0 && l.root == TrainRoot && l.speaker == speaker :: l.name;
    assert forall n :: Loc(TrainRoot, speaker, n) in files0 ==> n in names;
    AfterMovesNone(files0, devLines, blocked);
    MoveEachAfterMoves(files0, {}, speaker, order1, names, devLines, blocked);
    MoveEachAfterMoves(files0, {}, speaker, order2, names, devLines, blocked);
  }

  /** With nothing listed yet, no file has moved. */
  lemma AfterMovesNone(files: map<Loc, Blob>, devLines: seq<string>, blocked: set<Loc>)
    ensures AfterMoves(files, {}, devLines, blocked) == files
  {
    assert forall k :: k in AfterMoves(files, {}, devLines, blocked) ==> k in files;
  }

  /** The directories and files after the speaker loop has listed the
      speakers before number `i` and made the dev directories before number
      `made`: `dirs0` are the directories before the dev root was made and
      `files0` the files before the loop. */
  ghost predicate Reached(i: nat, made: nat, dirs0: set<Dir>, files0: map<Loc, Blob>,
                          dirs: set<Dir>, files: map<Loc, Blob>, devLines: seq<string>, blocked: set<Loc>)
    requires i <= made <= SpeakerCount + 1
  {
    && TrainDirsBefore(i) <= dirs0
    && dirs == dirs0 + {RootDir(DevRoot)} + DevDirsBefore(made)
    && files == AfterMoves(files0, TrainLocs(files0, SpeakersBefore(i)), devLines, blocked)
  }

  /** Before the first speaker the loop has listed, made and moved
      nothing. */
  lemma ReachedStart(dirs0: set<Dir>, files0: map<Loc, Blob>, devLines: seq<string>, blocked: set<Loc>)
    ensures Reached(1, 1, dirs0, files0, dirs0 + {RootDir(DevRoot)}, files0, devLines, blocked)
  {
    assert SpeakersBefore(1) == {};
    assert TrainLocs(files0, {}) == {};
    assert TrainDirsBefore(1) == {} && DevDirsBefore(1) == {};
    AfterMovesNone(files0, devLines, blocked);
  }

  /** The source tree and the dev tree. */
  class Corpus {
    var dirs: set<Dir>
    var files: map<Loc, Blob>

    /** Every file sits in an existing speaker directory, and every speaker
        directory in an existing root. */
    ghost predicate Valid()
      reads this
    {
      && (forall l :: l in files ==> SpeakerDir(l.root, l.speaker) in dirs)
      && (forall r, s :: SpeakerDir(r, s) in dirs ==> RootDir(r) in dirs)
    }

    /** `if not os.path.exists(d): os.makedirs(d)`: afterwards `d` and its
        parent root exist, and nothing else has changed. */
    method MakeDirs(d: Dir)
      requires Valid()
      modifies this`dirs
      ensures Valid()
      ensures dirs == old(dirs) + {d, RootDir(d.root)}
    {
      if d !in dirs {
        dirs := dirs + {d, RootDir(d.root)};
      }
    }

    /** The body of the listing loop for the file `src`: when it is a `.wav`
        file that passes the dev test, try `shutil.move` to its dev twin;
        a move that raises leaves the files as they were. */
    method MoveListed(src: Loc, devLines: seq<string>, blocked: set<Loc>)
      requires Valid() && SpeakerDir(DevRoot, src.speaker) in dirs
      modifies this`files
      ensures Valid()
      ensures files == MoveOne(old(files), src, devLines, blocked)
    {
      if IsWav(src.name) {
        var isDev := FindDevMatch(Stem(src.name), devLines);
        if isDev && src !in blocked && src in files {
          files := (files - {src})[DevTwin(src) := files[src]];
        }
      }
    }

    /** One speaker's part of `split_wav_files`: lists the speaker's train
        directory once and tries to move each listed `.wav` file that passes
        the dev test, in whatever order the listing gives. */
    method MoveSpeakerFiles(speaker: string, devLines: seq<string>, blocked: set<Loc>,
                            ghost files0: map<Loc, Blob>, ghost listed0: set<Loc>)
      requires Valid() && SpeakerDir(DevRoot, speaker) in dirs
      requires forall l :: l in listed0 ==> l.speaker != speaker
      requires files == AfterMoves(files0, listed0, devLines, blocked)
      modifies this`files
      ensures Valid()
      ensures files == AfterMoves(files0, listed0 + TrainLocs(files0, {speaker}), devLines, blocked)
    {
      var listing := set l | l in files && l.root == TrainRoot && l.speaker == speaker :: l.name;
      ghost var listing0 := listing;
      ghost var order: seq<string> := [];
      ListingUnchanged(files0, listed0, devLines, blocked, speaker, listing);
      while listing != {}
        invariant listing <= listing0
        invariant forall n :: n in order <==> n in listing0 && n !in listing
        invariant NoRepeats(order)
        invariant Valid()
        invariant files == MoveEach(old(files), speaker, order, devLines, blocked)
        decreases listing
      {
        var name :| name in listing;
        MoveListed(Loc(TrainRoot, speaker, name), devLines, blocked);
        ListStep(order, listing, listing0, name);
        listing := listing - {name};
        order := order + [name];
      }
      MoveEachAfterMoves(files0, listed0, speaker, order, listing0, devLines, blocked);
      NamedListing(files0, speaker, listing0);
    }

    /** `split_wav_files` with the dev index `devText`. The run either visits
        all 46 speakers or stops at the first speaker whose train directory
        is missing, where `os.listdir` raises outside any `try`. */
    method Relocate(devText: string, blocked: set<Loc>) returns (outcome: Outcome)
      requires Valid()
      modifies this
      ensures Valid()
      ensures var devLines := ReadStripped(devText);
        match outcome
        case Completed =>
          && (forall j :: 1 <= j <= SpeakerCount ==> SpeakerDir(TrainRoot, SpeakerId(j)) in old(dirs))
          && dirs == old(dirs) + {RootDir(DevRoot)} + DevDirsBefore(SpeakerCount + 1)
          && files == Relocated(old(files), devLines, blocked)
        case ListingFailed(i) =>
          && 1 <= i <= SpeakerCount
          && SpeakerDir(TrainRoot, SpeakerId(i)) !in old(dirs)
          && (forall j :: 1 <= j < i ==> SpeakerDir(TrainRoot, SpeakerId(j)) in old(dirs))
          && dirs == old(dirs) + {RootDir(DevRoot)} + DevDirsBefore(i + 1)
          && files == AfterMoves(old(files), TrainLocs(old(files), SpeakersBefore(i)), devLines, blocked)
    {
      ghost var dirs0 := dirs;
      MakeDirs(RootDir(DevRoot));
      var devLines := ReadStrippedLines(devText);
      outcome := MoveSpeakers(devLines, blocked, dirs0);
      match outcome
      case Completed => TrainDirsListed(SpeakerCount + 1);
      case ListingFailed(i) => TrainDirsListed(i);
    }

    /** The speaker loop of `split_wav_files`, once the dev root exists and
        the dev lines are read; `dirs0` are the directories before the dev
        root was made. */
    method MoveSpeakers(devLines: seq<string>, blocked: set<Loc>, ghost dirs0: set<Dir>) returns (outcome: Outcome)
      requires Valid() && dirs == dirs0 + {RootDir(DevRoot)}
      modifies this
      ensures Valid()
      ensures match outcome
        case Completed => Reached(SpeakerCount + 1, SpeakerCount + 1, dirs0, old(files), dirs, files, devLines, blocked)
        case ListingFailed(i) =>
          && 1 <= i <= SpeakerCount
          && SpeakerDir(TrainRoot, SpeakerId(i)) !in dirs0
          && Reached(i, i + 1, dirs0, old(files), dirs, files, devLines, blocked)
    {
      ghost var files0 := files;
      ReachedStart(dirs0, files0, devLines, blocked);
      var i: nat := 1;
      while i <= SpeakerCount
        invariant 1 <= i <= SpeakerCount + 1
        invariant Valid() && Reached(i, i, dirs0, files0, dirs, files, devLines, blocked)
      {
        var listed := VisitSpeaker(i, devLines, blocked, dirs0, files0);
        if !listed {
          return ListingFailed(i);
        }
        i := i + 1;
      }
      outcome := Completed;
    }

    /** Step `i` of the speaker loop: make the speaker's dev directory, then
        list its train directory (`listed` is false when that directory is
        missing and `os.listdir` raises) and move its dev files. */
    method VisitSpeaker(i: nat, devLines: seq<string>, blocked: set<Loc>,
                        ghost dirs0: set<Dir>, ghost files0: map<Loc, Blob>) returns (listed: bool)
      requires 1 <= i <= SpeakerCount
      requires Valid() && Reached(i, i, dirs0, files0, dirs, files, devLines, blocked)
      modifies this
      ensures Valid()
      ensures listed <==> SpeakerDir(TrainRoot, SpeakerId(i)) in dirs0
      ensures listed ==> Reached(i + 1, i + 1, dirs0, files0, dirs, files, devLines, blocked)
      ensures !listed ==> Reached(i, i + 1, dirs0, files0, dirs, files, devLines, blocked)
    {
      var speaker := SpeakerId(i);
      ghost var before := dirs;
      MakeDirs(SpeakerDir(DevRoot, speaker));
      AddDevDir(dirs0, before, dirs, i);
      DevDirsInDevRoot(i + 1);
      if SpeakerDir(TrainRoot, speaker) !in dirs {
        return false;
      }
      NextSpeaker(files0, i);
      TrainDirsStep(i);
      MoveSpeakerFiles(speaker, devLines, blocked, files0, TrainLocs(files0, SpeakersBefore(i)));
      listed := true;
    }
  }

  /** How a run of `split_wav_files` ends. */
  datatype Outcome = Completed | ListingFailed(speaker: nat)

  /** Step `i` of the speaker loop visits a speaker not visited before and
      adds its train files and its dev directory to those of the earlier
      steps. */
  lemma NextSpeaker(files0: map<Loc, Blob>, i: nat)
    requires 1 <= i <= SpeakerCount
    ensures SpeakerId(i) !in SpeakersBefore(i)
    ensures SpeakersBefore(i + 1) == SpeakersBefore(i) + {SpeakerId(i)}
    ensures TrainLocs(files0, SpeakersBefore(i + 1)) == TrainLocs(files0, SpeakersBefore(i)) + TrainLocs(files0, {SpeakerId(i)})
    ensures DevDirsBefore(i + 1) == DevDirsBefore(i) + {SpeakerDir(DevRoot, SpeakerId(i))}
  {
  }

  /** The listing taken from the current files is the listing of the initial
      files: nothing has touched this speaker's train directory yet. */
  lemma ListingUnchanged(files0: map<Loc, Blob>, listed: set<Loc>, devLines: seq<string>, blocked: set<Loc>,
                         speaker: string, listing: set<string>)
    requires forall l :: l in listed ==> l.speaker != speaker
    requires listing == set l | l in AfterMoves(files0, listed, devLines, blocked) && l.root == TrainRoot && l.speaker == speaker :: l.name
    ensures forall n :: n in listing <==> Loc(TrainRoot, speaker, n) in files0
  {
    forall n ensures n in listing <==> Loc(TrainRoot, speaker, n) in files0 {
      AfterMovesUnlisted(files0, listed, devLines, blocked, Loc(TrainRoot, speaker, n));
    }
  }

  /** The move a completed run makes for train file `l`. */
  ghost predicate Relocates(l: Loc, devLines: seq<string>, blocked: set<Loc>) {
    l.root == TrainRoot && l.speaker in AllSpeakers() && IsDevFile(l.name, devLines) && l !in blocked
  }

  /** A train file of one of the 46 speakers that passes the dev test, and
      whose move does not raise, ends up with the same contents in the
      mirrored dev directory and is gone from the train directory. */
  lemma RelocatedMovesDevFile(files: map<Loc, Blob>, devLines: seq<string>, blocked: set<Loc>, l: Loc)
    requires l in files && Relocates(l, devLines, blocked)
    ensures var after := Relocated(files, devLines, blocked);
      l !in after && DevTwin(l) in after && after[DevTwin(l)] == files[l]
  {
    assert TrainTwin(DevTwin(l)) == l;
    assert DevTwin(l) in DevTwins(files.Keys);
  }

  /** Every other train file stays where it is, unchanged. */
  lemma RelocatedKeepsTrainFile(files: map<Loc, Blob>, devLines: seq<string>, blocked: set<Loc>, l: Loc)
    requires l in files && l.root == TrainRoot && !Relocates(l, devLines, blocked)
    ensures var after := Relocated(files, devLines, blocked);
      l in after && after[l] == files[l]
  {
  }

  /** A dev file stays unchanged unless a moved train file of the same name
      replaces it. */
  lemma RelocatedKeepsDevFile(files: map<Loc, Blob>, devLines: seq<string>, blocked: set<Loc>, l: Loc)
    requires l in files && l.root == DevRoot
    requires !(TrainTwin(l) in files && Relocates(TrainTwin(l), devLines, blocked))
    ensures var after := Relocated(files, devLines, blocked);
      l in after && after[l] == files[l]
  {
  }

  /** No file comes from nowhere: each file afterwards was there before, or
      is the dev twin of a train file that was there before. */
  lemma RelocatedAddsNothing(files: map<Loc, Blob>, devLines: seq<string>, blocked: set<Loc>, k: Loc)
    requires k in Relocated(files, devLines, blocked)
    ensures k in files || (k.root == DevRoot && TrainTwin(k) in files)
  {
  }

  /** No utterance file sits in both roots at once. */
  ghost predicate SingleOwner(files: map<Loc, Blob>) {
    forall speaker, name :: !(Loc(TrainRoot, speaker, name) in files && Loc(DevRoot, speaker, name) in files)
  }

  /** The file `<speaker>/<name>` exists in one of the two roots. */
  ghost predicate Present(files: map<Loc, Blob>, speaker: string, name: string) {
    Loc(TrainRoot, speaker, name) in files || Loc(DevRoot, speaker, name) in files
  }

  /** Ownership: a move never duplicates a file, so a corpus where every file
      has a single root keeps that property. */
  lemma RelocatedSingleOwner(files: map<Loc, Blob>, devLines: seq<string>, blocked: set<Loc>)
    requires SingleOwner(files)
    ensures SingleOwner(Relocated(files, devLines, blocked))
  {
  }

  /** A move never loses a file either: each `<speaker>/<name>` exists in
      some root afterwards exactly when it did before. */
  lemma RelocatedPresence(files: map<Loc, Blob>, devLines: seq<string>, blocked: set<Loc>, speaker: string, name: string)
    ensures Present(Relocated(files, devLines, blocked), speaker, name) <==> Present(files, speaker, name)
  {
    var t, d := Loc(TrainRoot, speaker, name), Loc(DevRoot, speaker, name);
    assert DevTwin(t) == d && TrainTwin(d) == t;
    if t in files && Relocates(t, devLines, blocked) {
      RelocatedMovesDevFile(files, devLines, blocked, t);
    } else if t in files {
      RelocatedKeepsTrainFile(files, devLines, blocked, t);
    } else if d in files {
      RelocatedKeepsDevFile(files, devLines, blocked, d);
    }
    if Present(Relocated(files, devLines, blocked), speaker, name) {
      if t in Relocated(files, devLines, blocked) {
        RelocatedAddsNothing(files, devLines, blocked, t);
      } else {
        RelocatedAddsNothing(files, devLines, blocked, d);
      }
    }
  }

  /** After a completed run the only train files that would still pass the
      dev test are those whose move raised: a re-run has nothing new to move. */
  lemma RelocatedLeavesOnlyBlocked(files: map<Loc, Blob>, devLines: seq<string>, blocked: set<Loc>, l: Loc)
    requires l in Relocated(files, devLines, blocked)
    requires l.root == TrainRoot && l.speaker in AllSpeakers() && IsDevFile(l.name, devLines)
    ensures l in blocked
  {
    RelocatedAddsNothing(files, devLines, blocked, l);
    if l !in blocked {
      RelocatedMovesDevFile(files, devLines, blocked, l);
    }
  }

  /** Re-running a completed relocation with the same dev index changes
      nothing. */
  lemma RelocatedIdempotent(files: map<Loc, Blob>, devLines: seq<string>, blocked: set<Loc>)
    ensures Relocated(Relocated(files, devLines, blocked), devLines, blocked) == Relocated(files, devLines, blocked)
  {
    var once := Relocated(files, devLines, blocked);
    var twice := Relocated(once, devLines, blocked);
    forall l | l in once && Relocates(l, devLines, blocked) ensures false {
      RelocatedLeavesOnlyBlocked(files, devLines, blocked, l);
    }
    forall k | k in twice ensures k in once {
      RelocatedAddsNothing(once, devLines, blocked, k);
    }
    forall k | k in once ensures k in twice && twice[k] == once[k] {
      if k.root == TrainRoot {
        RelocatedKeepsTrainFile(once, devLines, blocked, k);
      } else {
        RelocatedKeepsDevFile(once, devLines, blocked, k);
      }
    }
  }
}

=== FILE: results.dfy ===
/** Failure-carrying values shared by the modules of this model. */
module Results {

  /** An optional value: `None` stands for Python's `None` result. */
  datatype Option<+T> = None | Some(value: T)

  /** A value or the error that the modelled code raises instead. */
  datatype Result<+T, +E> = Ok(value: T) | Err(error: E)
}

=== FILE: seqs.dfy ===
/** Facts about sequences built one element at a time, stated for any
    element type so that proofs using them need not look inside the
    elements. */
module Seqs {
  import opened Results

  /** The prefix of length `i + 1` is the prefix of length `i` followed by
      element `i`. */
  lemma PrefixSnoc<T>(s: seq<T>, i: nat)
    requires i < |s|
    ensures s[..i + 1] == s[..i] + [s[i]]
    ensures s[..i + 1][..i] == s[..i]
  {
  }

  /** Mapping `f` over a list one element at a time: the mapped prefix
      followed by the image of the last element is the mapped list. */
  lemma MapSnoc<A, B>(f: A -> B, init: seq<B>, xs: seq<A>)
    requires xs != [] && |init| == |xs| - 1
    requires forall i :: 0 <= i < |init| ==> init[i] == f(xs[..|xs| - 1][i])
    ensures forall i :: 0 <= i < |xs| ==> (init + [f(xs[|xs| - 1])])[i] == f(xs[i])
  {
    forall i | 0 <= i < |xs|
      ensures (init + [f(xs[|xs| - 1])])[i] == f(xs[i])
    {
      if i < |init| {
        assert xs[..|xs| - 1][i] == xs[i];
      }
    }
  }

  /** A property holds of every element exactly when it holds of every
      element but the last, and of the last. */
  lemma AllSnoc<A>(p: A -> bool, init: seq<A>, xs: seq<A>)
    requires xs != [] && init == xs[..|xs| - 1]
    ensures (forall i :: 0 <= i < |xs| ==> p(xs[i])) <==>
      (forall i :: 0 <= i < |init| ==> p(init[i])) && p(xs[|xs| - 1])
  {
    assert forall i :: 0 <= i < |init| ==> init[i] == xs[i];
  }

  /** Collecting the values of a partial map `f` one element at a time: if
      the collected prefix holds the values for every element but the last,
      adding the value of the last gives the values for all of them. */
  lemma CollectSnoc<A, B>(f: A -> Option<B>, init: seq<B>, xs: seq<A>, b: B)
    requires xs != [] && |init| == |xs| - 1
    requires forall i :: 0 <= i < |init| ==> f(xs[..|xs| - 1][i]).Some? && init[i] == f(xs[..|xs| - 1][i]).value
    requires f(xs[|xs| - 1]) == Some(b)
    ensures forall i :: 0 <= i < |xs| ==> f(xs[i]).Some? && (init + [b])[i] == f(xs[i]).value
  {
    forall i | 0 <= i < |xs|
      ensures f(xs[i]).Some? && (init + [b])[i] == f(xs[i]).value
    {
      if i < |init| {
        assert xs[..|xs| - 1][i] == xs[i];
        assert (init + [b])[i] == init[i];
      } else {
        assert (init + [b])[i] == b;
      }
    }
  }

  /** No element occurs twice. */
  predicate NoRepeats<T(==)>(order: seq<T>) {
    forall i, j :: 0 <= i < j < |order| ==> order[i] != order[j]
  }

  /** Without its last element, an enumeration of `names` without repeats
      enumerates the other names, still without repeats. */
  lemma LastListed<T>(order: seq<T>, names: set<T>)
    requires order != [] && NoRepeats(order)
    requires forall n :: n in order <==> n in names
    ensures var init, last := order[..|order| - 1], order[|order| - 1];
      && last in names && NoRepeats(init)
      && (forall n :: n in init <==> n in names - {last})
      && (names - {last}) + {last} == names
  {
    var init, last := order[..|order| - 1], order[|order| - 1];
    assert last in order;
    forall n ensures n in init <==> n in names - {last} {
      if n in init {
        var i :| 0 <= i < |init| && init[i] == n;
        assert order[i] == n;
      }
      if n in order && n != last {
        var i :| 0 <= i < |order| && order[i] == n;
        assert init[i] == n;
      }
    }
  }

  /** Taking one more element out of what is left to enumerate and adding it
      to the enumeration so far keeps the enumeration free of repeats and
      in step with what is left. */
  lemma ListStep<T>(order: seq<T>, left: set<T>, all: set<T>, x: T)
    requires x in left && left <= all && NoRepeats(order)
    requires forall n :: n in order <==> n in all && n !in left
    ensures left - {x} <= all && NoRepeats(order + [x])
    ensures forall n :: n in order + [x] <==> n in all && n !in left - {x}
    ensures (order + [x])[..|order|] == order
  {
  }
}

=== FILE: speakers.dfy ===
/**
 * The fixed speaker partition of the corpus: `for i in range(1, 47)` with
 * `speaker_id = f"VIVOSSPK{i:02}"`.
 */
module Speakers {
  import opened Results

  const SpeakerPrefix := "VIVOSSPK"

  /** The number of speakers `range(1, 47)` visits. */
  const SpeakerCount := 46

  /** The decimal digit for `d`. */
  function Digit(d: nat): (c: char)
    requires d < 10
    ensures '0' <= c <= '9'
  {
    ('0' as int + d) as char
  }

  /** The value of a decimal digit character. */
  function DigitValue(c: char): int {
    c as int - '0' as int
  }

  predicate IsDigit(c: char) {
    '0' <= c <= '9'
  }

  /** `f"{i:02}"` for `i` below 100: exactly two digits, zero-padded, that
      read back as `i`. */
  function Pad2(i: nat): (s: string)
    requires i < 100
    ensures |s| == 2 && IsDigit(s[0]) && IsDigit(s[1])
    ensures 10 * DigitValue(s[0]) + DigitValue(s[1]) == i
  {
    [Digit(i / 10), Digit(i % 10)]
  }

  /** `f"VIVOSSPK{i:02}"`. */
  function SpeakerId(i: nat): (id: string)
    requires 1 <= i <= SpeakerCount
    ensures |id| == |SpeakerPrefix| + 2 && id[..|SpeakerPrefix|] == SpeakerPrefix
  {
    SpeakerPrefix + Pad2(i)
  }

  /** Reads a speaker id back: the number after the prefix, when the id is
      the prefix followed by two digits. */
  function SpeakerNumber(id: string): Option<nat> {
    if |id| == |SpeakerPrefix| + 2 && id[..|SpeakerPrefix|] == SpeakerPrefix
       && IsDigit(id[8]) && IsDigit(id[9])
    then Some(10 * DigitValue(id[8]) + DigitValue(id[9]))
    else None
  }

  /** Reading an id back gives the number it was formatted from. */
  lemma SpeakerNumberOfId(i: nat)
    requires 1 <= i <= SpeakerCount
    ensures SpeakerNumber(SpeakerId(i)) == Some(i)
  {
    var id := SpeakerId(i);
    assert id[8..] == Pad2(i);
  }

  /** Different speaker numbers give different ids. */
  lemma SpeakerIdInjective(i: nat, j: nat)
    requires 1 <= i <= SpeakerCount && 1 <= j <= SpeakerCount
    requires SpeakerId(i) == SpeakerId(j)
    ensures i == j
  {
    SpeakerNumberOfId(i);
    SpeakerNumberOfId(j);
  }

  /** The speaker ids in the order the loop visits them. */
  function SpeakerIds(): seq<string> {
    seq(SpeakerCount, k requires 0 <= k < SpeakerCount => SpeakerId(k + 1))
  }

  /** The ids are exactly the strings made of the prefix and two digits whose
      value lies in 1..46. */
  lemma SpeakerIdsExactly(id: string)
    ensures id in SpeakerIds() <==>
      SpeakerNumber(id).Some? && 1 <= SpeakerNumber(id).value <= SpeakerCount
  {
    if id in SpeakerIds() {
      var k :| 0 <= k < SpeakerCount && SpeakerIds()[k] == id;
      SpeakerNumberOfId(k + 1);
    }
    if SpeakerNumber(id).Some? && 1 <= SpeakerNumber(id).value <= SpeakerCount {
      var i := SpeakerNumber(id).value;
      SpeakerIdOfNumber(id);
      assert SpeakerIds()[i - 1] == SpeakerId(i);
    }
  }

  /** Two digits padded back from their value are the same two digits. */
  lemma Pad2OfDigits(a: char, b: char)
    requires IsDigit(a) && IsDigit(b)
    ensures Pad2(10 * DigitValue(a) + DigitValue(b)) == [a, b]
  {
    var n := 10 * DigitValue(a) + DigitValue(b);
    assert n / 10 == DigitValue(a) && n % 10 == DigitValue(b);
  }

  /** An id that reads back as a speaker number is the id formatted from
      that number. */
  lemma SpeakerIdOfNumber(id: string)
    requires SpeakerNumber(id).Some? && 1 <= SpeakerNumber(id).value <= SpeakerCount
    ensures SpeakerId(SpeakerNumber(id).value) == id
  {
    Pad2OfDigits(id[8], id[9]);
    assert id == id[..8] + [id[8], id[9]];
  }

  /** Python's `a < b` on strings: lexicographic by code point. */
  predicate LexLess(a: string, b: string) {
    if a == [] then b != []
    else if b == [] then false
    else if a[0] != b[0] then a[0] < b[0]
    else LexLess(a[1..], b[1..])
  }

  /** A common prefix does not change the comparison. */
  lemma {:induction false} LexLessCommonPrefix(p: string, a: string, b: string)
    ensures LexLess(p + a, p + b) == LexLess(a, b)
  {
    if p != [] {
      assert (p + a)[1..] == p[1..] + a;
      assert (p + b)[1..] == p[1..] + b;
      LexLessCommonPrefix(p[1..], a, b);
    } else {
      assert p + a == a && p + b == b;
    }
  }

  /** Zero padding makes the string order agree with the number order. */
  lemma Pad2Ordered(i: nat, j: nat)
    requires i < j < 100
    ensures LexLess(Pad2(i), Pad2(j))
  {
    var a, b := Pad2(i), Pad2(j);
    if a[0] == b[0] {
      assert a[1..] == [a[1]] && b[1..] == [b[1]];
      assert LexLess([a[1]], [b[1]]);
    }
  }

  /** The ids are visited in strictly increasing string order, so each one
      is visited once. */
  lemma SpeakerIdsIncreasing(k: nat, l: nat)
    requires k < l < SpeakerCount
    ensures LexLess(SpeakerIds()[k], SpeakerIds()[l])
    ensures SpeakerIds()[k] != SpeakerIds()[l]
  {
    Pad2Ordered(k + 1, l + 1);
    LexLessCommonPrefix(SpeakerPrefix, Pad2(k + 1), Pad2(l + 1));
    LexLessIrreflexive(SpeakerIds()[k]);
  }

  /** No string is below itself. */
  lemma {:induction false} LexLessIrreflexive(a: string)
    ensures !LexLess(a, a)
  {
    if a != [] {
      LexLessIrreflexive(a[1..]);
    }
  }
}

=== FILE: text.dfy ===
/**
 * The Python string operations the corpus scripts rely on, over `seq<char>`:
 * `str.isspace`, `str.strip`, `str.startswith`, `str.endswith` and
 * `str.replace`.
 */
module Text {
  import opened Results

  /** `c.isspace()` in Python: the ASCII controls TAB..CR and FS..US, the space,
      NEL, NO-BREAK SPACE and the Unicode space separators. */
  predicate IsSpace(c: char) {
    var n := c as int;
    (9 <= n <= 13) || (28 <= n <= 32) || n == 0x85 || n == 0xA0 || n == 0x1680 ||
    (0x2000 <= n <= 0x200A) || n == 0x2028 || n == 0x2029 || n == 0x202F ||
    n == 0x205F || n == 0x3000
  }

  /** A string with no white space at either end, as `strip()` leaves it. */
  predicate IsStripped(s: string) {
    s == [] || (!IsSpace(s[0]) && !IsSpace(s[|s| - 1]))
  }

  /** `s.lstrip()`: drops the leading white space and nothing else. */
  function TrimStart(s: string): (r: string)
    ensures |r| <= |s| && r == s[|s| - |r|..]
    ensures forall i :: 0 <= i < |s| - |r| ==> IsSpace(s[i])
    ensures r == [] || !IsSpace(r[0])
    ensures s == [] || !IsSpace(s[0]) ==> r == s
  {
    if s != [] && IsSpace(s[0]) then
      var r := TrimStart(s[1..]);
      SuffixOfTail(s, r);
      r
    else s
  }

  /** A suffix of the tail of `s` is a suffix of `s`, and what the tail has
      before it, `s` has one position later. */
  lemma SuffixOfTail(s: string, r: string)
    requires s != [] && |r| <= |s| - 1 && r == s[1..][|s| - 1 - |r|..]
    ensures r == s[|s| - |r|..]
    ensures forall i :: 1 <= i < |s| - |r| ==> s[i] == s[1..][i - 1]
  {
  }

  /** `s.rstrip()`: drops the trailing white space and nothing else. */
  function TrimEnd(s: string): (r: string)
    ensures |r| <= |s| && r == s[..|r|]
    ensures forall i :: |r| <= i < |s| ==> IsSpace(s[i])
    ensures r == [] || !IsSpace(r[|r| - 1])
    ensures s == [] || !IsSpace(s[|s| - 1]) ==> r == s
  {
    if s != [] && IsSpace(s[|s| - 1]) then TrimEnd(s[..|s| - 1]) else s
  }

  /** `s.strip()`: the longest infix of `s` that neither starts nor ends with
      white space, obtained by removing white space only. */
  function Strip(s: string): (r: string)
    ensures IsStripped(r)
    ensures |r| <= |s|
    ensures IsStripped(s) ==> r == s
  {
    TrimEnd(TrimStart(s))
  }

  /** `s.strip()` applied twice is `s.strip()` applied once. */
  lemma StripIdempotent(s: string)
    ensures Strip(Strip(s)) == Strip(s)
  {
  }

  /** Where the leading white space of `s` ends. */
  function StripStart(s: string): (i: nat)
    ensures i <= |s|
  {
    |s| - |TrimStart(s)|
  }

  /** `strip()` keeps the infix of `s` between its leading and its trailing
      white space: everything before the infix and everything after it is
      white space. */
  lemma StripInfix(s: string)
    ensures StripStart(s) + |Strip(s)| <= |s|
    ensures Strip(s) == s[StripStart(s)..StripStart(s) + |Strip(s)|]
    ensures forall j :: 0 <= j < StripStart(s) ==> IsSpace(s[j])
    ensures forall j :: StripStart(s) + |Strip(s)| <= j < |s| ==> IsSpace(s[j])
  {
    var t := TrimStart(s);
    assert StripStart(s) == |s| - |t| && Strip(s) == TrimEnd(t);
    InfixOfSuffix(s, t, TrimEnd(t), |s| - |t|);
  }

  /** A prefix `r` of the suffix `t` of `s` starting at `i`, when what
      follows `r` in `t` is white space, is the infix of `s` at `i`, and
      what follows it in `s` is white space. */
  lemma InfixOfSuffix(s: string, t: string, r: string, i: nat)
    requires i <= |s| && t == s[i..] && |r| <= |t| && r == t[..|r|]
    requires forall k :: |r| <= k < |t| ==> IsSpace(t[k])
    ensures i + |r| <= |s| && r == s[i..i + |r|]
    ensures forall j :: i + |r| <= j < |s| ==> IsSpace(s[j])
  {
    forall j | i + |r| <= j < |s| ensures IsSpace(s[j]) {
      assert s[j] == t[j - i];
    }
  }

  /** `lstrip()` of one character more: the character is kept unless all
      of `x` and the character itself are white space. */
  lemma {:induction false} TrimStartSnoc(x: string, c: char)
    ensures TrimStart(x + [c]) == if TrimStart(x) == [] then TrimStart([c]) else TrimStart(x) + [c]
  {
    if x == [] {
      assert x + [c] == [c];
    } else if IsSpace(x[0]) {
      assert (x + [c])[1..] == x[1..] + [c];
      TrimStartSnoc(x[1..], c);
    }
  }

  /** A trailing white-space character does not change what `strip()`
      returns. */
  lemma StripSpaceSnoc(x: string, c: char)
    requires IsSpace(c)
    ensures Strip(x + [c]) == Strip(x)
  {
    var t := TrimStart(x);
    TrimStartSnoc(x, c);
    if t == [] {
      assert TrimStart([c]) == TrimStart([]);
    } else {
      assert TrimStart(x + [c]) == t + [c];
      TrimEndSpaceSnoc(t, c);
    }
  }

  /** `rstrip()` drops a trailing white-space character. */
  lemma TrimEndSpaceSnoc(t: string, c: char)
    requires IsSpace(c)
    ensures TrimEnd(t + [c]) == TrimEnd(t)
  {
    assert (t + [c])[..|t|] == t;
  }

  /** A trailing white-space character falls to `strip()`. */
  lemma StripTrailingSpace(s: string, c: char)
    requires IsStripped(s) && IsSpace(c)
    ensures Strip(s + [c]) == s
  {
    if s == [] {
      assert TrimStart([c]) == [];
    } else {
      assert TrimStart(s + [c]) == s + [c];
      assert (s + [c])[..|s|] == s;
    }
  }

  /** `s.startswith(p)`. */
  predicate StartsWith(s: string, p: string) {
    |p| <= |s| && s[..|p|] == p
  }

  /** `s.endswith(p)`. */
  predicate EndsWith(s: string, p: string) {
    |p| <= |s| && s[|s| - |p|..] == p
  }

  /** `pat` occurs in `s` starting at index `i`. */
  predicate OccursAt(pat: string, s: string, i: nat) {
    i + |pat| <= |s| && s[i..i + |pat|] == pat
  }

  /** `pat in s` for Python strings. */
  predicate Occurs(pat: string, s: string) {
    exists i: nat | i <= |s| :: OccursAt(pat, s, i)
  }

  /** `s.replace(pat, rep)` for a non-empty `pat`: a left-to-right scan that
      replaces every non-overlapping occurrence, leftmost first. */
  function ReplaceAll(s: string, pat: string, rep: string): string
    requires pat != []
    decreases |s|
  {
    if |s| < |pat| then s
    else if s[..|pat|] == pat then rep + ReplaceAll(s[|pat|..], pat, rep)
    else [s[0]] + ReplaceAll(s[1..], pat, rep)
  }

  /** A longer replacement gives a result at least as long, and strictly
      longer when `pat` occurs at all. */
  lemma {:induction false} ReplaceAllLonger(s: string, pat: string, r1: string, r2: string)
    requires pat != [] && |r1| > |r2|
    ensures |ReplaceAll(s, pat, r1)| >= |ReplaceAll(s, pat, r2)|
    ensures Occurs(pat, s) ==> |ReplaceAll(s, pat, r1)| > |ReplaceAll(s, pat, r2)|
    decreases |s|
  {
    if |s| < |pat| {
    } else if s[..|pat|] == pat {
      ReplaceAllLonger(s[|pat|..], pat, r1, r2);
    } else {
      ReplaceAllLonger(s[1..], pat, r1, r2);
      if Occurs(pat, s) {
        var i: nat :| i <= |s| && OccursAt(pat, s, i);
        assert i != 0;
        assert s[1..][i - 1..i - 1 + |pat|] == s[i..i + |pat|];
        assert OccursAt(pat, s[1..], i - 1);
      }
    }
  }

  /** No occurrence of `pat` in `s` starts before index `n`. */
  predicate NoneBefore(pat: string, s: string, n: nat) {
    forall i: nat :: i < n ==> !OccursAt(pat, s, i)
  }

  /** Dropping the first character shifts every occurrence one place left. */
  lemma NoneBeforeTail(pat: string, s: string, n: nat)
    requires s != [] && 0 < n && NoneBefore(pat, s, n)
    ensures NoneBefore(pat, s[1..], n - 1)
  {
    forall i: nat | i < n - 1
      ensures !OccursAt(pat, s[1..], i)
    {
      assert !OccursAt(pat, s, i + 1);
      if i + |pat| <= |s[1..]| {
        assert s[1..][i..i + |pat|] == s[i + 1..i + 1 + |pat|];
      }
    }
  }

  /** Where no occurrence starts at the front, the scan keeps the first
      character and moves on. */
  lemma ReplaceAllSkip(s: string, pat: string, rep: string)
    requires pat != [] && s != [] && !OccursAt(pat, s, 0)
    ensures ReplaceAll(s, pat, rep) == [s[0]] + ReplaceAll(s[1..], pat, rep)
  {
    if |s| < |pat| {
      assert !Occurs(pat, s[1..]) by {
        forall i: nat | i <= |s[1..]| ensures !OccursAt(pat, s[1..], i) { }
      }
    }
  }

  /** When no occurrence of `pat` starts inside `a`, the replacement leaves
      `a` alone and works on `b` only. */
  lemma {:induction false} ReplaceAllAfter(a: string, b: string, pat: string, rep: string)
    requires pat != []
    requires NoneBefore(pat, a + b, |a|)
    ensures ReplaceAll(a + b, pat, rep) == a + ReplaceAll(b, pat, rep)
    decreases |a|
  {
    if a != [] {
      var s := a + b;
      assert s[1..] == a[1..] + b;
      NoneBeforeTail(pat, s, |a|);
      ReplaceAllAfter(a[1..], b, pat, rep);
      ReplaceAllSkip(s, pat, rep);
      var rb := ReplaceAll(b, pat, rep);
      assert ReplaceAll(s[1..], pat, rep) == a[1..] + rb;
      assert s[0] == a[0];
      assert [a[0]] + (a[1..] + rb) == a + rb;
    } else {
      assert a + b == b;
    }
  }

  /** A string made of the pattern alone is replaced by the replacement. */
  lemma ReplaceAllWhole(pat: string, rep: string)
    requires pat != []
    ensures ReplaceAll(pat, pat, rep) == rep
  {
    assert pat[|pat|..] == [];
    assert pat[..|pat|] == pat;
  }

  /** A string that does not contain the pattern comes back unchanged. */
  lemma {:induction false} ReplaceAllAbsent(s: string, pat: string, rep: string)
    requires pat != [] && !Occurs(pat, s)
    ensures ReplaceAll(s, pat, rep) == s
  {
    assert NoneBefore(pat, s + [], |s|) by {
      assert s + [] == s;
    }
    ReplaceAllAfter(s, [], pat, rep);
    assert s + [] == s;
  }

  /** `s.find(c)`: the index of the first `c` in `s`, if any. */
  function FindChar(s: string, c: char): (r: Option<nat>)
    ensures r.None? <==> c !in s
    ensures r.Some? ==> r.value < |s| && s[r.value] == c && c !in s[..r.value]
  {
    if s == [] then None
    else if s[0] == c then Some(0)
    else
      match FindChar(s[1..], c)
      case None => None
      case Some(i) =>
        assert s[..i + 1] == [s[0]] + s[1..][..i];
        Some(i + 1)
  }
}

=== FILE: transcript_split.dfy ===
/**
 * `split_transcript`: divides the lines of a training transcript index into
 * a new training index and a development (validation) index.
 *
 * The random draw of `random.sample` is a parameter: `picks` holds the
 * positions of `data` the generator chose, in drawing order.
 */
module TranscriptSplit {
  import opened Results
  import opened Text
  import opened LineFiles

  /** Python's `int(x)`: truncation toward zero. */
  function Truncate(x: real): (r: int)
    ensures 0.0 <= x ==> 0 <= r && r as real <= x < r as real + 1.0
    ensures x < 0.0 ==> r <= 0 && r as real - 1.0 < x <= r as real
  {
    if x >= 0.0 then x.Floor else -((-x).Floor)
  }

  /** `int(len(data) * dev_ratio)`: the number of lines drawn for dev. */
  function DevCount(n: nat, ratio: real): int {
    Truncate(n as real * ratio)
  }

  /** For a ratio between 0 and 1 the count is the floor of `n * ratio` and
      a valid sample size: at least 0 and at most `n`. */
  lemma DevCountInRange(n: nat, ratio: real)
    requires 0.0 <= ratio <= 1.0
    ensures DevCount(n, ratio) == (n as real * ratio).Floor
    ensures 0 <= DevCount(n, ratio) <= n
  {
    var x := n as real * ratio;
    ProductBelow(n as real, ratio);
    assert Truncate(x) == x.Floor;
    assert x.Floor as real <= n as real;
  }

  /** Scaling a non-negative amount by a ratio between 0 and 1 stays between
      0 and that amount. */
  lemma ProductBelow(a: real, ratio: real)
    requires 0.0 <= a && 0.0 <= ratio <= 1.0
    ensures 0.0 <= a * ratio <= a
  {
    assert a * ratio + a * (1.0 - ratio) == a;
    assert 0.0 <= a * (1.0 - ratio);
  }

  /** `int` truncates toward zero: a product in (-1, 0) gives 0 lines, while
      a product at or below -1, or at or above `n + 1`, gives a sample size
      that `random.sample` refuses. */
  lemma DevCountTruncates(n: nat, ratio: real)
    ensures -1.0 < n as real * ratio < 0.0 ==> DevCount(n, ratio) == 0
    ensures n as real * ratio <= -1.0 || n as real * ratio >= n as real + 1.0 ==>
      !(0 <= DevCount(n, ratio) <= n)
  {
  }

  /** `picks` is a draw of `k` distinct positions among `n`, as
      `random.sample(data, k)` makes one (sampling without replacement). */
  predicate IsDraw(picks: seq<nat>, n: nat, k: int) {
    && |picks| == k
    && (forall i :: 0 <= i < |picks| ==> picks[i] < n)
    && (forall i, j :: 0 <= i < j < |picks| ==> picks[i] != picks[j])
  }

  /** The lines at the drawn positions, in drawing order. */
  function Select(data: seq<string>, picks: seq<nat>): (dev: seq<string>)
    requires forall i :: 0 <= i < |picks| ==> picks[i] < |data|
    ensures |dev| == |picks|
    ensures forall i :: 0 <= i < |dev| ==> dev[i] in data
  {
    seq(|picks|, i requires 0 <= i < |picks| => data[picks[i]])
  }

  /** `[sample for sample in data if sample not in dev_samples]`: the lines of
      `data` equal to no dev line, in their original order. */
  function Train(data: seq<string>, dev: seq<string>): (train: seq<string>)
    ensures |train| <= |data|
    ensures forall x :: x in train <==> x in data && x !in dev
  {
    if data == [] then []
    else (if data[0] in dev then [] else [data[0]]) + Train(data[1..], dev)
  }

  /** Order preservation: filtering a concatenation filters each part and
      keeps the parts in order. */
  lemma {:induction false} TrainConcat(a: seq<string>, b: seq<string>, dev: seq<string>)
    ensures Train(a + b, dev) == Train(a, dev) + Train(b, dev)
  {
    if a == [] {
      assert a + b == b;
    } else {
      assert (a + b)[1..] == a[1..] + b;
      TrainConcat(a[1..], b, dev);
    }
  }

  /** Duplicates: a line chosen for dev loses every copy from train; any
      other line keeps all its copies. */
  lemma {:induction false} TrainMultiplicity(data: seq<string>, dev: seq<string>, x: string)
    ensures multiset(Train(data, dev))[x] == if x in dev then 0 else multiset(data)[x]
  {
    if data != [] {
      TrainMultiplicity(data[1..], dev, x);
      var head := if data[0] in dev then [] else [data[0]];
      assert multiset(Train(data, dev)) == multiset(head) + multiset(Train(data[1..], dev));
      assert data == [data[0]] + data[1..];
      assert multiset(data) == multiset([data[0]]) + multiset(data[1..]);
    }
  }

  /** Disjointness and coverage: no line is in both outputs, and every line
      of `data` is in one of them. */
  lemma TrainDevPartition(data: seq<string>, picks: seq<nat>)
    requires IsDraw(picks, |data|, |picks|)
    ensures var dev := Select(data, picks);
      var train := Train(data, dev);
      && (forall x :: !(x in train && x in dev))
      && (forall x :: x in data <==> x in train || x in dev)
  {
  }

  /** Drawing from a prefix of `data` that holds every drawn position. */
  lemma SelectPrefix(data: seq<string>, m: nat, picks: seq<nat>)
    requires m <= |data| && forall i :: 0 <= i < |picks| ==> picks[i] < m
    ensures Select(data, picks) == Select(data[..m], picks)
  {
  }

  /** Drawing by a concatenation of position lists. */
  lemma SelectConcat(data: seq<string>, p: seq<nat>, q: seq<nat>)
    requires forall i :: 0 <= i < |p| ==> p[i] < |data|
    requires forall i :: 0 <= i < |q| ==> q[i] < |data|
    ensures Select(data, p + q) == Select(data, p) + Select(data, q)
  {
  }

  /** Taking the drawn position `n` out of a draw among `n + 1` leaves a
      draw among `n`. */
  lemma DrawWithout(picks: seq<nat>, n: nat, j: nat)
    requires IsDraw(picks, n + 1, |picks|) && j < |picks| && picks[j] == n
    ensures IsDraw(picks[..j] + picks[j + 1..], n, |picks| - 1)
  {
    var rest := picks[..j] + picks[j + 1..];
    assert forall i :: 0 <= i < |rest| ==> rest[i] == (if i < j then picks[i] else picks[i + 1]);
  }

  /** Drawing the last position between two draws from the rest. */
  lemma SelectAround(data: seq<string>, before: seq<nat>, after: seq<nat>)
    requires data != []
    requires forall i :: 0 <= i < |before| ==> before[i] < |data| - 1
    requires forall i :: 0 <= i < |after| ==> after[i] < |data| - 1
    ensures Select(data, before + [|data| - 1] + after)
      == Select(data[..|data| - 1], before) + [data[|data| - 1]] + Select(data[..|data| - 1], after)
  {
    var m := |data| - 1;
    SelectConcat(data, before + [m], after);
    SelectConcat(data, before, [m]);
    SelectPrefix(data, m, before);
    SelectPrefix(data, m, after);
  }

  /** Drawing the last position as well keeps a sub-multiset draw one. */
  lemma SubMultisetAround(data: seq<string>, before: seq<nat>, after: seq<nat>)
    requires data != []
    requires forall i :: 0 <= i < |before| ==> before[i] < |data| - 1
    requires forall i :: 0 <= i < |after| ==> after[i] < |data| - 1
    requires multiset(Select(data[..|data| - 1], before + after)) <= multiset(data[..|data| - 1])
    ensures multiset(Select(data, before + [|data| - 1] + after)) <= multiset(data)
  {
    var m := |data| - 1;
    var init := data[..m];
    SelectAround(data, before, after);
    SelectConcat(init, before, after);
    assert data == init + [data[m]];
    InsertSubMultiset(Select(init, before), Select(init, after), data[m], init);
  }

  /** Adding the same line to both sides keeps a sub-multiset one. */
  lemma InsertSubMultiset(left: seq<string>, right: seq<string>, x: string, init: seq<string>)
    requires multiset(left + right) <= multiset(init)
    ensures multiset(left + [x] + right) <= multiset(init + [x])
  {
    calc {
      multiset(left + [x] + right);
      multiset(left) + multiset{x} + multiset(right);
      multiset(left + right) + multiset{x};
    <=
      multiset(init) + multiset{x};
      multiset(init + [x]);
    }
  }

  /** Sampling without replacement: the dev lines, counted with multiplicity,
      are a sub-multiset of `data`. */
  lemma {:induction false} SelectSubMultiset(data: seq<string>, picks: seq<nat>)
    requires IsDraw(picks, |data|, |picks|)
    ensures multiset(Select(data, picks)) <= multiset(data)
    decreases |data|
  {
    if data != [] {
      var m := |data| - 1;
      var init := data[..m];
      assert data == init + [data[m]];
      if m in picks {
        var j :| 0 <= j < |picks| && picks[j] == m;
        var before, after := picks[..j], picks[j + 1..];
        assert picks == before + [m] + after;
        DrawWithout(picks, m, j);
        SelectSubMultiset(init, before + after);
        SubMultisetAround(data, before, after);
      } else {
        assert IsDraw(picks, |init|, |picks|);
        SelectSubMultiset(init, picks);
        SelectPrefix(data, m, picks);
      }
    }
  }

  /** A sub-multiset is no larger. */
  lemma SubMultisetSize(a: multiset<string>, b: multiset<string>)
    requires a <= b
    ensures |a| <= |b|
  {
    assert b == a + (b - a);
  }

  /** Line counts: train and dev together never hold more lines than `data`. */
  lemma SplitSizeBound(data: seq<string>, picks: seq<nat>)
    requires IsDraw(picks, |data|, |picks|)
    ensures |Train(data, Select(data, picks))| + |picks| <= |data|
  {
    var dev := Select(data, picks);
    var train := Train(data, dev);
    SelectSubMultiset(data, picks);
    forall x ensures (multiset(train) + multiset(dev))[x] <= multiset(data)[x] {
      TrainMultiplicity(data, dev, x);
    }
    SubMultisetSize(multiset(train) + multiset(dev), multiset(data));
  }

  /** No line occurs twice. */
  predicate Distinct(data: seq<string>) {
    forall i, j :: 0 <= i < j < |data| ==> data[i] != data[j]
  }

  /** In a sequence of distinct lines every line occurs at most once. */
  lemma {:induction false} DistinctAtMostOnce(data: seq<string>, x: string)
    requires Distinct(data)
    ensures multiset(data)[x] <= 1
  {
    if data != [] {
      assert data == [data[0]] + data[1..];
      DistinctAtMostOnce(data[1..], x);
      if x == data[0] {
        assert x !in data[1..];
      }
    }
  }

  /** Line counts: with distinct lines, train and dev together hold exactly
      the lines of `data`. */
  lemma SplitSizeDistinct(data: seq<string>, picks: seq<nat>)
    requires IsDraw(picks, |data|, |picks|) && Distinct(data)
    ensures |Train(data, Select(data, picks))| + |picks| == |data|
  {
    var dev := Select(data, picks);
    var train := Train(data, dev);
    SelectSubMultiset(data, picks);
    forall x ensures (multiset(train) + multiset(dev))[x] == multiset(data)[x] {
      TrainMultiplicity(data, dev, x);
      DistinctAtMostOnce(data, x);
    }
    assert multiset(train) + multiset(dev) == multiset(data);
  }

  /** Line counts: with a repeated line the two outputs can fall short of
      `data`, because the copy left behind is dropped from train as well. */
  lemma SplitSizeShortfall()
    ensures var data := ["a", "a", "b"];
      var dev := Select(data, [0]);
      && DevCount(|data|, 1.0 / 3.0) == 1
      && dev == ["a"]
      && Train(data, dev) == ["b"]
      && |Train(data, dev)| + |dev| < |data|
  {
    var data := ["a", "a", "b"];
    assert Select(data, [0]) == ["a"];
    assert Train(data, ["a"]) == ["b"] by {
      assert data[1..] == ["a", "b"];
      assert data[1..][1..] == ["b"];
    }
  }

  /** The name pieces the output paths are built from. */
  const TrainFile := "train.txt"
  const NewTrainFile := "train_new.txt"
  const DevFile := "dev.txt"

  /** `train_transcript_file.replace("train.txt", "train_new.txt")`. */
  function NewTrainPath(path: string): string {
    ReplaceAll(path, TrainFile, NewTrainFile)
  }

  /** `train_transcript_file.replace("train.txt", "dev.txt")`. */
  function DevPath(path: string): string {
    ReplaceAll(path, TrainFile, DevFile)
  }

  /** For the index `<dir><sep>train.txt` the outputs are its siblings
      `train_new.txt` and `dev.txt`, provided the directory part does not
      itself contain "train.txt". */
  lemma OutputPathsAreSiblings(dir: string, sep: char)
    requires sep !in TrainFile && !Occurs(TrainFile, dir)
    ensures NewTrainPath(dir + [sep] + TrainFile) == dir + [sep] + NewTrainFile
    ensures DevPath(dir + [sep] + TrainFile) == dir + [sep] + DevFile
  {
    var a := dir + [sep];
    var s := a + TrainFile;
    forall i: nat | i < |a| ensures !OccursAt(TrainFile, s, i) {
      if i + |TrainFile| <= |dir| {
        assert s[i..i + |TrainFile|] == dir[i..i + |TrainFile|];
        assert !OccursAt(TrainFile, dir, i);
      } else if i + |TrainFile| <= |s| {
        assert s[i..i + |TrainFile|][|dir| - i] == sep;
      }
    }
    ReplaceAllAfter(a, TrainFile, TrainFile, NewTrainFile);
    ReplaceAllAfter(a, TrainFile, TrainFile, DevFile);
    ReplaceAllWhole(TrainFile, NewTrainFile);
    ReplaceAllWhole(TrainFile, DevFile);
  }

  /** A path without "train.txt" comes back unchanged from both replacements,
      so both outputs land on the input file itself. */
  lemma OutputPathsCollide(path: string)
    requires !Occurs(TrainFile, path)
    ensures NewTrainPath(path) == path && DevPath(path) == path
  {
    ReplaceAllAbsent(path, TrainFile, NewTrainFile);
    ReplaceAllAbsent(path, TrainFile, DevFile);
  }

  /** `random.sample` raises `ValueError` for a sample size below 0 or above
      the number of lines. */
  datatype SplitError = SampleSizeError(k: int, n: nat)

  /** The two output paths and the lines written to each. */
  datatype Split = Split(newTrainPath: string, devPath: string, train: seq<string>, dev: seq<string>)

  /** The two files written for a draw from the lines of an index: the
      new training index and the dev index, in that order. */
  function Outputs(data: seq<string>, picks: seq<nat>, trainPath: string, devPath: string, nl: Newline)
    : (written: map<string, string>)
    requires forall i :: 0 <= i < |picks| ==> picks[i] < |data|
    ensures written.Keys == {trainPath, devPath}
  {
    var dev := Select(data, picks);
    map[trainPath := WriteLines(Train(data, dev), nl)][devPath := WriteLines(dev, nl)]
  }

  /** Both outputs hold lines read from an index, so reading either file
      back gives the lines written to it; when both paths coincide the dev
      file, written last, is the one left. */
  lemma OutputsRoundTrip(text: string, picks: seq<nat>, trainPath: string, devPath: string, nl: Newline)
    requires forall i :: 0 <= i < |picks| ==> picks[i] < |ReadStripped(text)|
    ensures var data := ReadStripped(text);
      var dev := Select(data, picks);
      var written := Outputs(data, picks, trainPath, devPath, nl);
      && ReadStripped(written[devPath]) == dev
      && (trainPath != devPath ==> ReadStripped(written[trainPath]) == Train(data, dev))
  {
    var data := ReadStripped(text);
    var dev := Select(data, picks);
    ReadStrippedClean(text);
    WriteLinesOfRoundTrip(data, dev, nl);
    WriteLinesOfRoundTrip(data, Train(data, dev), nl);
  }

  /** Lines taken from clean lines survive writing and reading back. */
  lemma WriteLinesOfRoundTrip(data: seq<string>, lines: seq<string>, nl: Newline)
    requires forall x :: x in data ==> IsClean(x)
    requires forall x :: x in lines ==> x in data
    ensures ReadStripped(WriteLines(lines, nl)) == lines
  {
    forall i | 0 <= i < |lines| ensures IsClean(lines[i]) {
      assert lines[i] in lines;
    }
    WriteReadRoundTrip(lines, nl);
  }

  /** `split_transcript(path, ratio)` on an index whose contents are `text`.
      `written` maps each output path to the contents it holds afterwards;
      `nl` is the platform's line terminator. */
  method SplitTranscript(path: string, text: string, ratio: real, picks: seq<nat>, nl: Newline)
    returns (r: Result<Split, SplitError>, written: map<string, string>)
    requires var n := |ReadStripped(text)|;
      0 <= DevCount(n, ratio) <= n ==> IsDraw(picks, n, DevCount(n, ratio))
    ensures r.Ok? <==> 0 <= DevCount(|ReadStripped(text)|, ratio) <= |ReadStripped(text)|
    ensures r.Err? ==>
      && r.error == SampleSizeError(DevCount(|ReadStripped(text)|, ratio), |ReadStripped(text)|)
      && written == map[]
    ensures r.Ok? ==>
      && |r.value.dev| == DevCount(|ReadStripped(text)|, ratio)
      && r.value.dev == Select(ReadStripped(text), picks)
      && r.value.train == Train(ReadStripped(text), r.value.dev)
      && r.value.newTrainPath == NewTrainPath(path)
      && r.value.devPath == DevPath(path)
      && written.Keys == {r.value.newTrainPath, r.value.devPath}
      && ReadStripped(written[r.value.devPath]) == r.value.dev
      && (r.value.newTrainPath != r.value.devPath ==>
            ReadStripped(written[r.value.newTrainPath]) == r.value.train)
  {
    var data := ReadStrippedLines(text);
    var k := DevCount(|data|, ratio);
    if !(0 <= k <= |data|) {
      return Err(SampleSizeError(k, |data|)), map[];
    }
    var dev := Select(data, picks);
    var train := Train(data, dev);
    var trainPath, devPath := NewTrainPath(path), DevPath(path);
    written := map[];
    written := written[trainPath := WriteLines(train, nl)];
    written := written[devPath := WriteLines(dev, nl)];
    assert written == Outputs(data, picks, trainPath, devPath, nl);
    OutputsRoundTrip(text, picks, trainPath, devPath, nl);
    r := Ok(Split(trainPath, devPath, train, dev));
  }
}
